=== FILE: README.md ===
# dynamo-update-expression, modelled in Dafny

`dynamo-update-expression` turns two versions of a JSON document into a DynamoDB update. The
documents are the `original` item and the `modified` item. The update has three parts:

- an `UpdateExpression` of the form `SET … REMOVE …`;
- an `ExpressionAttributeNames` table of `#name` aliases;
- an `ExpressionAttributeValues` table of `:value` aliases.

It can also add an optimistic-lock condition on a version or range attribute.

The behaviour modelled here is the behaviour that the package's Jest suite,
`src/dynamo-update-expression.spec.js`, fixes. The modules follow the package's parts:

| module | what it holds |
|---|---|
| `Json` (json.dfy) | JSON documents as trees. Maps are sequences of fields, so insertion order is kept. Includes `Get` and the vivifying write `SetAt` that the path library performs. |
| `Differ` (differ.dfy) | `diff(original, modified, orphans)` and its three groups of change records: ADD, SET and DELETE. |
| `DiffSoundness`, `DiffCompleteness`, `DiffEquivalence`, `DiffLocality` | What a record means about the two documents. That every difference is reported. When the diff is empty. Which records a single edit produces. |
| `JsonPath`, `Sorting` | The JSONPath text of a record (`$.a["b c"][2]`) and the stable sort the assembler orders records by. |
| `Camel`, `Decimal`, `Aliases` | Word splitting and camelCase. Decimal numerals. The alias allocator, with its 255-character ceiling and shared numeric suffix counter. |
| `Assembler`, `AssemblerProperties` | `getUpdateExpression`: ordering, aliasing and rendering, and what the result promises. |
| `VersionLock`, `VersionLockProperties` | `getVersionedUpdateExpression` and `getVersionLockExpression`, and their decision tables. |
| `Edits` | The suite's own document helpers `applyUpdates` and `applyDeletes`. They are modelled both as written and corrected (see Findings). Lemmas state which records the diff sees for each edit. |
| `AliasExamples` | Alias tokens the suite expects, derived from the naming rules. |

The package's implementation file is not part of this model. Its behaviour is taken from
the assertions in the test file. Where the assertions and the package's prose description
differ, the model follows the assertions:

- **Version clause position.** The versioned expression does not put the version in a SET
  clause of its own at the end. The version is written into the modified document and
  diffed with everything else. Its clause is therefore sorted among the others, as an ADD
  before the SETs (`SET #version = :version, #parent.#child = :parentChild`,
  src/dynamo-update-expression.spec.js:1095). In the DELETE-only case it is a SET before `REMOVE` (src/dynamo-update-expression.spec.js:1122).
- **Token allocation order.** Tokens are allocated in rendering order: sorted ADD clauses,
  then sorted SET clauses, then sorted REMOVE clauses. They are not allocated in discovery
  order. Rendering order is what the suffixes `L1`, `A2`, `L3`, `L4` at src/dynamo-update-expression.spec.js:564-616
  require.
- **Shared value token with prefix `''`.** When a versioned expression uses the alias prefix
  `''`, the condition's value token can coincide with the update's token for the same
  path. In that case the condition's literal overwrites the update's value, as
  src/dynamo-update-expression.spec.js:1253-1280 expects (`:consumed` holds `100`, the expected value).
- **DELETE granularity.** The comment at src/dynamo-update-expression.spec.js:97 says deletion
  paths enumerate leaves. The assertions remove a vanished key as a whole instead:
  `#listOfAddresses` at src/dynamo-update-expression.spec.js:221 and `#pictures` at
  src/dynamo-update-expression.spec.js:290. `Differ` emits one DELETE at the key.
- **Unchanged version.** Because the version is diffed like any other field, a modified
  document that already holds the original's version at the version path gets no SET clause
  for it. The prose says a version clause is always present. No assertion fixes either
  behaviour; the model follows the diff.
- **Shape changes and blanked map values.** The prose says that a node whose shape
  changes (map to list, or collection to scalar and back) is replaced leaf by leaf: every
  original leaf deleted, every new leaf added or set. The model emits a single SET of the
  whole new value at that node (`DiffLocality.DiffOfSet`, and exactly that record in
  `DiffCompleteness.DiffComplete`). The prose also gives the "becomes `null` or `""`, so
  DELETE" rule for list elements only. The model applies it at every node, so a map value
  that becomes `null` or `""` is one DELETE at its key (`DiffLocality.DiffOfClear`). No
  assertion of the suite covers either case.
- **Clause order.** The prose sorts the records of each group by their rendered alias path.
  The assertion at src/dynamo-update-expression.spec.js:693 puts `#title = :title` before
  `#safetyWarning = :safetyWarning`, which only the order of the JSONPath text
  (`$.title` before `$["Safety.Warning"]`) gives. `Sorting.SortBy` orders by JSONPath text.

The callers' defaults are the default parameter values of the model's entry points:
`orphans` is true for `Differ.Diff` and false for `Assembler.GetUpdateExpression` and
`VersionLock.GetVersionedUpdateExpression`. The version path is `$.version`
(`VersionLock.DefaultVersionPath`), `useCurrent` is true, the condition's namespace is
`expected` (`VersionLock.DefaultPrefix`), and there is no override of the current or the
new version unless one is given. `original` defaults to `{}` for
`VersionLock.GetVersionedUpdateExpression` and `VersionLock.GetVersionLockExpression`. `nullify` is true for `Edits.ApplyDeletes`.

## Model

| member | source | states |
|---|---|---|
| Json.GetSetAt | src/dynamo-update-expression.spec.js:103-110 | Writing a value at a path, creating missing maps and list slots on the way as `jp.value` does, leaves exactly that value readable at the path. |
| Edits.ApplyUpdates | src/dynamo-update-expression.spec.js:103-110 | The loop over the updates yields the copy with every update written in order. |
| Edits.SetAllLast | src/dynamo-update-expression.spec.js:103-110 | After `applyUpdates`, the last update's path holds the last update's value. |
| Edits.DeleteOne | src/dynamo-update-expression.spec.js:112-130 | A deletion fails exactly when the path is the root or addresses no node. |
| Edits.ApplyDeletes | src/dynamo-update-expression.spec.js:112-130 | The loop performs the deletions in order and stops at the first one that fails. The result is the fold of the single deletions. |
| Edits.ErrorPersists | src/dynamo-update-expression.spec.js:115-129 | Once a deletion has failed, later deletions change nothing in the outcome. |
| Edits.NullifySlot | src/dynamo-update-expression.spec.js:117-122 | With `nullify`, deleting a list slot writes `null` into that slot, so no index shifts. |
| Edits.DeleteKeyRemoves | src/dynamo-update-expression.spec.js:125-127 | Deleting a map key (corrected reading) removes that key. The parent map keeps every other field unchanged. |
| Edits.DiffOfDeletedKey | src/dynamo-update-expression.spec.js:169-181 | The diff of a document against itself minus one key is exactly one DELETE record at that key. |
| Edits.DiffOfNulledSlot | src/dynamo-update-expression.spec.js:169-181 | The diff of a document against itself with one non-null list slot nulled is exactly one DELETE record at that slot. |
| Edits.DiffOfUpdate | src/dynamo-update-expression.spec.js:157-167 | One update of an existing node to a different non-blank value, where old and new are not both maps and not both lists, gives exactly one SET record with that path and value. A scalar changed to another scalar (`price` 500 to 600) is such an update. |
| Edits.DiffOfAddition | src/dynamo-update-expression.spec.js:133-155 | One new key under an existing map gives exactly the ADD records of the new subtree: one per leaf with orphans, the whole subtree without. |
| Edits.LastDotPiece | src/dynamo-update-expression.spec.js:126 | `split('.').pop()` returns a dot-free tail of the string, preceded by a '.' whenever it is not the whole string. It is the whole string exactly when the string has no '.'. |
| Edits.DeleteOneAsWritten | src/dynamo-update-expression.spec.js:112-130 | The helper as written fails on the same inputs as the corrected one. |
| Edits.AsWrittenAgreesOnIdentifiers | src/dynamo-update-expression.spec.js:126 | For a key written in dot notation, the helper as written deletes the same key as the corrected deletion. |
| Edits.AsWrittenMissesBracketedKeys | src/dynamo-update-expression.spec.js:126 | For a key written in bracket notation, the helper as written leaves the key and its value in place. |
| Edits.BracketedKeyCounterexample | src/dynamo-update-expression.spec.js:126 | On `{"prefix-suffix": 1}` with path `$["prefix-suffix"]`, the helper as written keeps the key while the corrected deletion removes it. |
| DiffSoundness.DiffSound | src/dynamo-update-expression.spec.js:132-182 | Every record is justified. An ADD names a node only the modified document has; with orphans it is a leaf, without it hangs off a node the original had. A SET names a node present in both whose old and new values differ, are not both maps and not both lists, and whose new value is non-blank. A DELETE names a node of the original that is gone or blanked. |
| DiffCompleteness.DiffComplete | src/dynamo-update-expression.spec.js:132-182 | Every difference is reported, whatever the number of edits. A node only the original has lies at or below a DELETE record or a SET record. A node only the modified document has lies at or below an ADD record or a SET record. With orphans, a new leaf has an ADD record at its own path, carrying its value. A node both documents hold, with values that are not both maps or both lists, has a DELETE record at its path when blanked, and otherwise a SET record with the new value. |
| DiffEquivalence.DiffEmptyIff | src/dynamo-update-expression.spec.js:891-906 | The diff is empty if and only if the two documents are equivalent. Equivalence is equality up to the order of map keys. |
| DiffLocality.DiffLocal | src/dynamo-update-expression.spec.js:157-181 | Replacing the node at an existing path changes the diff only below that path. The diff there is the diff of the old and new subtree. |
| DiffLocality.DiffOfSet | src/dynamo-update-expression.spec.js:157-167 | Replacing a node by a different non-blank value, where old and new are not both maps and not both lists, is one SET record. |
| DiffLocality.DiffOfClear | src/dynamo-update-expression.spec.js:169-181 | A replacement by `null` or `""` is one DELETE record, not a SET. |
| DiffLocality.DiffOfRemoveKey | src/dynamo-update-expression.spec.js:169-181 | Removing a key, whatever its subtree, is one DELETE record at the key, never one per leaf. |
| DiffLocality.DiffOfAddKey | src/dynamo-update-expression.spec.js:133-155 | A new key contributes per-leaf ADD records with orphans and one whole-subtree ADD record without. The `{}` leaf counts as a leaf. |
| Sorting.SortBy | src/dynamo-update-expression.spec.js:613-614 | The records come out ordered by their JSONPath text and are a permutation of the input. |
| Camel.SplitConcat | src/dynamo-update-expression.spec.js:573-589 | Splitting a name into words keeps every letter and digit in order. Every word is a non-empty run of letters and digits. |
| Camel.CamelCaseLower | src/dynamo-update-expression.spec.js:573-589 | Camel-casing only changes letter case: ignoring case, the token is its words run together. |
| Aliases.Suffixed | src/dynamo-update-expression.spec.js:586-610 | A suffixed token never exceeds 255 characters. An over-long candidate is cut to exactly 255, suffix included. |
| Aliases.SuffixedInjective | src/dynamo-update-expression.spec.js:586-610 | Different suffixes of the same length give different tokens. |
| Aliases.FreeSuffix | src/dynamo-update-expression.spec.js:586-610 | The chosen suffix is the smallest at or above the start whose token is free. |
| Aliases.AllocName | src/dynamo-update-expression.spec.js:573-589 | A name token maps back to its key literal, and no existing binding is changed. A usable candidate is kept. Otherwise the token is fresh, the counter rises, and the token is the cut candidate plus the new counter. |
| Aliases.AllocValue | src/dynamo-update-expression.spec.js:594-610 | A value token is bound to its value and path. A token already owned by another path is never reused. Over-long or taken candidates get a fresh suffixed token from the shared counter. |
| Aliases.AllocNameCeiling | src/dynamo-update-expression.spec.js:586-589 | A name allocation keeps every token within 255 characters. |
| Aliases.AllocValueCeiling | src/dynamo-update-expression.spec.js:603-610 | A value allocation keeps every token within 255 characters. |
| Aliases.AliasSteps | src/dynamo-update-expression.spec.js:613-614 | Each key segment of a path is written by a token bound to that key, each index as `[i]`. Earlier bindings are kept. |
| Aliases.AliasStepsCeiling | src/dynamo-update-expression.spec.js:586-614 | Aliasing a path keeps every token within 255 characters. |
| Assembler.PlanAssign | src/dynamo-update-expression.spec.js:692-693 | An ADD or SET record becomes `path = :token`. Its names resolve to the path's keys, and its token is bound to the record's value and path. |
| Assembler.PlanAssigns | src/dynamo-update-expression.spec.js:613-614 | A run of records becomes one assignment clause per record, in the same order. Every clause resolves in the final tables. |
| Assembler.PlanAssignsFaithful | src/dynamo-update-expression.spec.js:594-610 | Aliasing records that hold the document's values keeps every value token bound to what the document holds at its path. |
| Assembler.PlanRemoves | src/dynamo-update-expression.spec.js:711-712 | DELETE paths become one value-less clause each, in order. The value table is untouched. |
| Assembler.PlanChanges | src/dynamo-update-expression.spec.js:776-777 | Clauses are the sorted ADD records, then the sorted SET records; removals are the sorted DELETE paths. Every clause resolves in the final tables, and earlier bindings are kept. |
| Assembler.PlanChangesCeiling | src/dynamo-update-expression.spec.js:564-616 | Planning keeps every token within 255 characters. |
| Assembler.Render | src/dynamo-update-expression.spec.js:711-712 | The text is empty exactly when there is no clause. |
| AssemblerProperties.PlanSizes | src/dynamo-update-expression.spec.js:722-781 | One assignment per ADD and SET record and one removal per DELETE record. |
| AssemblerProperties.UpdateExpressionEmpty | src/dynamo-update-expression.spec.js:891-906 | `UpdateExpression` is `''` exactly when the documents are equivalent. Then both tables are absent. |
| AssemblerProperties.RecordsStartWithKey | src/dynamo-update-expression.spec.js:184-252 | Every record path starts with an attribute name, so every clause begins with a `#` token. |
| AssemblerProperties.TablesPresent | src/dynamo-update-expression.spec.js:697-714 | The names table is present exactly when there is a change. The values table is present exactly when there is an ADD or SET, so a REMOVE-only result has no values. |
| AssemblerProperties.ValuesFaithful | src/dynamo-update-expression.spec.js:670-695 | Every value token is bound to exactly what the modified document holds at the token's path. |
| AssemblerProperties.UpdateExpressionCeiling | src/dynamo-update-expression.spec.js:564-616 | Every name and value token of the result is at most 255 characters long. |
| VersionLock.NextVersion | src/dynamo-update-expression.spec.js:1606-1621 | The new version is the explicit one if given; else the current number plus one; else 1. It fails exactly when there is no explicit version and the current one is not a number. |
| VersionLock.WithVersion | src/dynamo-update-expression.spec.js:1026-1048 | After the version is written, the modified document holds it at the version path. |
| VersionLock.PlanCondition | src/dynamo-update-expression.spec.js:1165-1189 | The condition names the version path in its own namespace. It is the first-write guard exactly when no expected value exists. Otherwise it uses the caller's operator and a token bound to the expected value at the version path. |
| VersionLockProperties.VersionedFails | src/dynamo-update-expression.spec.js:1561-1563 | The versioned expression fails exactly when the version path is invalid, or when no version is given and the current one is not a number. |
| VersionLockProperties.VersionedDecision | src/dynamo-update-expression.spec.js:1025-1528 | `attribute_not_exists` exactly when neither the original nor the caller has a current version. Otherwise the comparison's literal is the current version (`useCurrent`) or the new one. The new version is written into the update. |
| VersionLockProperties.VersionedKeepsUpdate | src/dynamo-update-expression.spec.js:1253-1320 | Adding the condition keeps every update clause resolvable. Only the condition's own candidate token, which can only belong to the version path, may change value. In the default namespace `expected`, the update's token for the version path keeps the new version. |
| VersionLockProperties.VersionedValuesFaithful | src/dynamo-update-expression.spec.js:1322-1346 | Before the condition is added, every value token of the update holds what the modified document, with the new version written in, holds at the token's path. |
| VersionLockProperties.LockFails | src/dynamo-update-expression.spec.js:1561-1563 | The lock expression fails exactly when the version path is invalid, or when no new version is given and the current one is not a number. |
| VersionLockProperties.LockDecision | src/dynamo-update-expression.spec.js:1530-1622 | One clause `SET version = :version`, whose token holds the new version in the value table. `attribute_not_exists` exactly when there is no original, override or new version. Otherwise the condition compares against the original version, else the override, else the new version, through a token other than the update's. |
| VersionLockProperties.ExpectedCandidateLonger | src/dynamo-update-expression.spec.js:1035-1038 | The condition's value candidate in the namespace `expected` is eight characters longer than the update's candidate for the same path. |
| VersionLockProperties.LockTokensApart | src/dynamo-update-expression.spec.js:1531-1544 | In the lock expression the condition never takes over the update's token, which keeps the new version. |
| VersionLockProperties.LockClauseToken | src/dynamo-update-expression.spec.js:1531-1544 | With the default version path the update's token is `:version`. |
| AliasExamples.VersionValue | src/dynamo-update-expression.spec.js:1531-1544 | The value at `$.version` is aliased `:version`. |
| VersionLockProperties.LockOfNothing | src/dynamo-update-expression.spec.js:1531-1544 | `getVersionLockExpression({})`, with the default version path and whatever the condition, is the first-write guard, and the value table maps `:version` to 1. |
| VersionLockProperties.LockOfVersionOne | src/dynamo-update-expression.spec.js:1606-1621 | With original version 1, the condition's token holds 1, and the update's token is `:version` and holds 2. |
| VersionLockProperties.LockOfText | src/dynamo-update-expression.spec.js:1561-1563 | A non-numeric original version, with no new version, is rejected with invalid arguments, whatever the condition. |
| AliasExamples.ExpectedVersionName | src/dynamo-update-expression.spec.js:1035-1038 | The key `version` in the `expected` namespace is aliased `#expectedVersion`. |
| AliasExamples.ParentChildValue | src/dynamo-update-expression.spec.js:1042-1046 | The value at `$.parent.child` is aliased `:parentChild`. |
| AliasExamples.SafetyWarningName | src/dynamo-update-expression.spec.js:681 | The key `Safety.Warning` is aliased `#safetyWarning`. |

## Left out

- Numbers are unbounded integers. Floating point, and JavaScript's `undefined` (modelled as `null`), are not represented.
- Word splitting and camelCase cover ASCII letters and digits only. The Unicode-aware word splitting of the package's camel-casing dependency is not modelled.
- Camel.Boundary: a new word starts at every change between digit and letter. lodash's splitter instead keeps an ordinal (`1st`, `2nd`, `3rd`, a digit and `th`, or their upper-case forms) together as one word. The key `4th` is therefore aliased `#4Th` by the model and `#4th` by the package, and `1stPlace` becomes `#1StPlace` instead of `#1stPlace`. No assertion of the suite uses an ordinal key.
- The comparison operator of the version condition has no default value in the model. Every assertion that reaches a comparison passes `condition` explicitly, so its default is not fixed.
- VersionLockProperties.VersionedKeepsUpdate: an update token that spells the condition's own candidate is not proved to keep its value. Such a token can be a suffixed one (allocated after its candidate was too long or taken), or any token of the version path when the namespace is not `expected`. In the namespace `expected`, only the unsuffixed update token of the version path is proved to keep its value.
- The `jsonpath` and `lodash` libraries are not modelled as libraries. `jp.value`, `jp.parent` and `_.cloneDeep` are modelled by their effect on the document tree. Deep copies are values, so aliasing between copies cannot arise.
- Paths are given as segment lists. The parsing of JSONPath strings such as `versionPath: '$.coupon.code'` is not modelled, except where the derived key is taken from the string text (`Edits.DeleteOneAsWritten`).
- DynamoDB sets (`supportSets`, the `DELETE` action) are not modelled. The suite's only test of them is commented out (src/dynamo-update-expression.spec.js:716-720).
- The skipped large-object test (src/dynamo-update-expression.spec.js:783-889) is not modelled.
- A version path that is the root or starts with a list index is rejected with `InvalidArguments`. This is the model's reading of the package's invalid-arguments error.
- Json.GetSetAt: a write whose path passes through an existing node of the wrong kind is not modelled as the path library performs it. Such a node is a truthy scalar (`true`, a non-zero number or a non-empty string), a list addressed by a key, or a map addressed by an index. `SetAt` replaces that node with a new container. The library creates a container only where the node is missing or falsy, and otherwise assigns the child on the existing node. The suite never writes through such a node.
- Aliases.AllocNameCeiling, Aliases.AllocValueCeiling, Aliases.AliasStepsCeiling, Assembler.PlanChangesCeiling and AssemblerProperties.UpdateExpressionCeiling: the ceiling is proved while the shared suffix counter has at most 255 decimal digits. Beyond that, the digits alone exceed the ceiling.
- The thrown exception's message text (`/Invalid arguments/`) is reduced to the single error value `InvalidArguments`. The exception `applyDeletes` raises for a deletion at the root or at a path with no node is reduced to the value `NoSuchPath`.

## Findings

| source | as written | input that shows it | evidently intended | confidence | as-written member | corrected member |
|---|---|---|---|---|---|---|
| src/dynamo-update-expression.spec.js:126 | `applyDeletes` deletes the map key `path.split('.').pop()`. For a bracketed path string without a '.', such as `$["prefix-suffix"]`, this is the whole path string rather than the key. | `applyDeletes({"prefix-suffix": 1}, ['$["prefix-suffix"]'])` leaves `prefix-suffix` in place. `$["Safety.Warning"]` likewise yields `Warning"]`. | Delete the key the path names. | not executed | Edits.BracketedKeyCounterexample | Edits.DeleteKeyRemoves |

=== FILE: alias_examples.dfy ===
/** Alias tokens of names that occur in the expected outputs of `getUpdateExpression`. */
module AliasExamples {
  import opened Json
  import opened Camel
  import opened Aliases

  lemma {:induction false} WordEndIs(s: string, j: nat, e: nat)
    requires 1 <= j <= e <= |s|
    requires forall i :: j <= i < e ==> IsAlnum(s[i]) && !Boundary(s, i)
    requires e == |s| || !IsAlnum(s[e]) || Boundary(s, e)
    ensures WordEnd(s, j) == e
    decreases e - j
  {
    if j < e {
      WordEndIs(s, j + 1, e);
    }
  }

  lemma {:induction false} NoApostrophes(s: string)
    requires forall i :: 0 <= i < |s| ==> s[i] != '\'' && s[i] != '’'
    ensures DropApostrophes(s) == s
  {
    if s != [] {
      NoApostrophes(s[1..]);
    }
  }

  /** A string that is one word from start to end splits into itself. */
  lemma SplitWhole(s: string)
    requires |s| >= 1 && IsAlnum(s[0]) && WordEnd(s, 1) == |s|
    ensures Split(s) == [s]
  {
    assert s[..|s|] == s;
    assert s[|s|..] == [];
  }

  lemma LowerFixed(w: string)
    requires forall i :: 0 <= i < |w| ==> IsLower(w[i])
    ensures LowerStr(w) == w
  {
    assert forall i :: 0 <= i < |w| ==> LowerStr(w)[i] == w[i];
  }

  /** A run of lower-case letters is one word. */
  lemma LowerWord(w: string)
    requires |w| >= 1 && forall i :: 0 <= i < |w| ==> IsLower(w[i])
    ensures Words(w) == [w] && LowerStr(w) == w && Split(w) == [w]
  {
    NoApostrophes(w);
    WordEndIs(w, 1, |w|);
    SplitWhole(w);
    LowerFixed(w);
  }

  /** A capital followed by lower-case letters is one word. */
  lemma CapitalWord(w: string)
    requires |w| >= 2 && IsUpper(w[0]) && forall i :: 1 <= i < |w| ==> IsLower(w[i])
    ensures Split(w) == [w] && Capitalize(w) == w
  {
    WordEndIs(w, 1, |w|);
    SplitWhole(w);
    LowerFixed(w[1..]);
    assert w == [w[0]] + w[1..];
  }

  /** A capital followed by lower-case letters, lower-cased. */
  lemma LowerOfCapital(w: string, l: string)
    requires |w| >= 1 && |l| == |w| && IsUpper(w[0]) && l[0] as int == w[0] as int + 32
    requires forall i :: 1 <= i < |w| ==> IsLower(w[i]) && l[i] == w[i]
    ensures LowerStr(w) == l
  {
    assert forall i :: 0 <= i < |w| ==> LowerStr(w)[i] == l[i];
  }

  lemma CamelPair(w1: string, w2: string)
    ensures CamelCase([w1, w2]) == LowerStr(w1) + Capitalize(w2)
  {
    assert [w1, w2][1..] == [w2];
    assert CapitalizeAll([w2]) == Capitalize(w2) + CapitalizeAll([]);
  }

  /** The name token of a one-word lower-case prefix and a one-word key. */
  lemma NameOfTwoWords(prefix: string, key: string)
    requires Words(prefix) == [prefix] && LowerStr(prefix) == prefix && Words(key) == [key]
    ensures NameCandidate(prefix, key) == "#" + prefix + Capitalize(key)
  {
    CamelPair(prefix, key);
  }

  lemma VersionCapital(key: string)
    requires key == "version"
    ensures Capitalize(key) == "Version"
  {
    LowerFixed(key[1..]);
  }

  lemma ExpectedWord(w: string)
    requires w == "expected"
    ensures Words(w) == [w] && LowerStr(w) == w
  {
    LowerWord(w);
  }

  lemma VersionWord(w: string)
    requires w == "version"
    ensures Words(w) == [w]
  {
    LowerWord(w);
  }

  /** The update's `:version`, the value at `$.version` outside any namespace. */
  lemma VersionValue(key: string)
    requires key == "version"
    ensures ValueCandidate("", [Key(key)]) == ":version"
  {
    LowerWord(key);
    assert Words("") == [];
    var p := [Key(key)];
    assert PathWords(p) == SegmentWords(Key(key)) + PathWords(p[1..]);
    var ws := Words("") + PathWords(p);
    assert ws == [key] && ws[1..] == [];
    assert CamelCase(ws) == key;
  }

  /** The condition's `#expectedVersion`, from the namespace `expected` and the key `version`. */
  lemma ExpectedVersionName(prefix: string, key: string)
    requires prefix == "expected" && key == "version"
    ensures NameCandidate(prefix, key) == "#expectedVersion"
  {
    ExpectedWord(prefix);
    VersionWord(key);
    NameOfTwoWords(prefix, key);
    VersionCapital(key);
    assert "#" + prefix + Capitalize(key) == "#expectedVersion";
  }

  lemma TwoKeyWords(a: string, b: string)
    requires |a| >= 1 && forall i :: 0 <= i < |a| ==> IsLower(a[i])
    requires |b| >= 1 && forall i :: 0 <= i < |b| ==> IsLower(b[i])
    ensures Words("") + PathWords([Key(a), Key(b)]) == [a, b]
  {
    LowerWord(a);
    LowerWord(b);
    assert Words("") == [];
    var p := [Key(a), Key(b)];
    assert PathWords(p) == SegmentWords(Key(a)) + PathWords(p[1..]);
    assert PathWords(p[1..]) == SegmentWords(Key(b)) + PathWords([]);
  }

  lemma ChildCapital(b: string)
    requires b == "child"
    ensures Capitalize(b) == "Child"
  {
    LowerFixed(b[1..]);
  }

  /** `:parentChild`, the value token of `$.parent.child`. */
  lemma ParentChildValue(a: string, b: string)
    requires a == "parent" && b == "child"
    ensures ValueCandidate("", [Key(a), Key(b)]) == ":parentChild"
  {
    TwoKeyWords(a, b);
    LowerWord(a);
    CamelPair(a, b);
    ChildCapital(b);
    assert ":" + a + Capitalize(b) == ":parentChild";
  }

  /** A word ending at a separator: the first word is cut there. */
  lemma FirstWordAt(s: string, e: nat)
    requires 1 <= e < |s| && IsUpper(s[0]) && !IsAlnum(s[e])
    requires forall i :: 1 <= i < e ==> IsLower(s[i])
    ensures Split(s) == [s[..e]] + Split(s[e..])
  {
    WordEndIs(s, 1, e);
  }

  lemma SafetyWarningPlain(s: string)
    requires s == "Safety.Warning"
    ensures DropApostrophes(s) == s
  {
    NoApostrophes(s);
  }

  lemma SafetyWarningText(s: string)
    requires s == "Safety.Warning"
    ensures DropApostrophes(s) == s
    ensures Split(s) == [s[..6]] + Split(s[6..])
  {
    SafetyWarningPlain(s);
    FirstWordAt(s, 6);
  }

  lemma WarningText(s: string)
    requires s == "Safety.Warning"
    ensures Split(s[6..]) == [s[7..]]
  {
    var rest, w := s[6..], s[7..];
    assert rest[0] == '.' && rest[1..] == w;
    CapitalWord(w);
  }

  lemma SafetyWarningWords(s: string)
    requires s == "Safety.Warning"
    ensures Words("") + Words(s) == [s[..6], s[7..]]
  {
    SafetyWarningText(s);
    WarningText(s);
    assert Words("") == [];
  }

  lemma WarningWord(w: string)
    requires w == "Warning"
    ensures Capitalize(w) == w
  {
    CapitalWord(w);
  }

  lemma SafetyLower(w: string)
    requires w == "Safety"
    ensures LowerStr(w) == "safety"
  {
    LowerOfCapital(w, "safety");
  }

  lemma SafetyWarningCamel(w1: string, w2: string)
    requires w1 == "Safety" && w2 == "Warning"
    ensures CamelCase([w1, w2]) == "safetyWarning"
  {
    WarningWord(w2);
    SafetyLower(w1);
    CamelPair(w1, w2);
  }

  /** The name token of a key is `#` and the camel case of its words. */
  lemma NameOfWords(prefix: string, key: string, ws: seq<string>)
    requires Words(prefix) + Words(key) == ws
    ensures NameCandidate(prefix, key) == "#" + CamelCase(ws)
  {
  }

  /** `#safetyWarning` for the key `Safety.Warning`: the dot separates two words. */
  lemma SafetyWarningName(s: string)
    requires s == "Safety.Warning"
    ensures NameCandidate("", s) == "#safetyWarning"
  {
    SafetyWarningWords(s);
    var w1, w2 := s[..6], s[7..];
    assert w1 == "Safety" && w2 == "Warning";
    SafetyWarningCamel(w1, w2);
    NameOfWords("", s, [w1, w2]);
    var t := CamelCase([w1, w2]);
    assert t == "safetyWarning";
    assert "#" + t == "#safetyWarning";
  }
}

=== FILE: aliases.dfy ===
/**
 * The alias allocator: placeholder tokens for attribute names (`#…`) and for values
 * (`:…`), with the tables that map them back. Every token is at most 255 characters;
 * a candidate that is too long, or already bound to something else, is cut and given
 * a numeric suffix from a counter shared by names and values.
 */
module Aliases {
  import opened Wrappers
  import opened Json
  import opened Decimal
  import opened Camel

  const MaxTokenLength: nat := 255

  /**
   * The allocation state: names maps a name token to its key literal, values maps a
   * value token to its value and owners to the path it was allocated for; counter is
   * the last numeric suffix issued.
   */
  datatype Table = Table(names: map<string, string>, values: map<string, Value>, owners: map<string, Path>, counter: nat)

  const EmptyTable := Table(map[], map[], map[], 0)

  /** The candidate cut so that it and the digits of `n` fit the ceiling together. */
  function Suffixed(cand: string, n: nat): (t: string)
    ensures |Digits(n)| <= MaxTokenLength ==> |t| <= MaxTokenLength
    ensures |Digits(n)| <= MaxTokenLength && |cand| > MaxTokenLength ==> |t| == MaxTokenLength
  {
    var d := Digits(n);
    var keep := if |d| <= MaxTokenLength then MaxTokenLength - |d| else 0;
    (if |cand| <= keep then cand else cand[..keep]) + d
  }

  /** Suffixes of the same length never produce the same token. */
  lemma SuffixedInjective(cand: string, m: nat, n: nat)
    requires |Digits(m)| == |Digits(n)| && Suffixed(cand, m) == Suffixed(cand, n)
    ensures m == n
  {
    var t := Suffixed(cand, m);
    assert Digits(m) == t[|t| - |Digits(m)|..];
    assert Digits(n) == t[|t| - |Digits(n)|..];
    DigitsInjective(m, n);
  }

  /** Pigeonhole: more same-length suffixes than taken tokens leaves one free. */
  lemma {:induction false} FreeAmong(cand: string, taken: set<string>, lo: nat, hi: nat, len: nat)
    requires hi - lo > |taken|
    requires forall k :: lo <= k < hi ==> |Digits(k)| == len
    ensures exists k :: lo <= k < hi && Suffixed(cand, k) !in taken
    decreases hi - lo
  {
    if Suffixed(cand, lo) in taken {
      var rest := taken - {Suffixed(cand, lo)};
      FreeAmong(cand, rest, lo + 1, hi, len);
      var k :| lo + 1 <= k < hi && Suffixed(cand, k) !in rest;
      if Suffixed(cand, k) == Suffixed(cand, lo) {
        SuffixedInjective(cand, k, lo);
      }
    }
  }

  /** Some suffix at or above `from` and below 10^(D+1), where D is the length of from + |taken|, is free. */
  lemma FreeBelow(cand: string, taken: set<string>, from: nat)
    ensures exists k :: from <= k < Pow10(|Digits(from + |taken|)| + 1) && Suffixed(cand, k) !in taken
  {
    var d := |Digits(from + |taken|)|;
    BelowPow10(from + |taken|);
    forall k | Pow10(d) <= k < Pow10(d + 1)
      ensures |Digits(k)| == d + 1
    {
      DigitsLength(k, d);
    }
    FreeAmong(cand, taken, Pow10(d), Pow10(d + 1), d + 1);
  }

  function SearchFrom(cand: string, taken: set<string>, n: nat, ghost bound: nat): (m: nat)
    requires exists k :: n <= k < bound && Suffixed(cand, k) !in taken
    ensures n <= m && Suffixed(cand, m) !in taken
    ensures forall k :: n <= k < m ==> Suffixed(cand, k) in taken
    decreases bound - n
  {
    if Suffixed(cand, n) !in taken then n else SearchFrom(cand, taken, n + 1, bound)
  }

  /** The smallest suffix at or above `from` whose token is not taken. */
  function FreeSuffix(cand: string, taken: set<string>, from: nat): (n: nat)
    ensures from <= n && Suffixed(cand, n) !in taken
    ensures forall k :: from <= k < n ==> Suffixed(cand, k) in taken
  {
    FreeBelow(cand, taken, from);
    SearchFrom(cand, taken, from, Pow10(|Digits(from + |taken|)| + 1))
  }

  /** Whether `cand` can be used as it stands: it fits the ceiling, and it is free or already bound to `want`. */
  predicate Reusable<K(==)>(table: map<string, K>, cand: string, want: K) {
    |cand| <= MaxTokenLength && (cand !in table || table[cand] == want)
  }

  /** A name token for the key literal `lit`, from the candidate `cand`. */
  function AllocName(t: Table, cand: string, lit: string): (r: (Table, string))
    ensures r.0 == t.(names := t.names[r.1 := lit], counter := r.0.counter)
    ensures r.1 in t.names ==> t.names[r.1] == lit
    ensures Reusable(t.names, cand, lit) ==> r.1 == cand && r.0.counter == t.counter
    ensures !Reusable(t.names, cand, lit) ==>
      r.1 == Suffixed(cand, r.0.counter) && r.0.counter > t.counter && r.1 !in t.names
  {
    if Reusable(t.names, cand, lit) then (t.(names := t.names[cand := lit]), cand)
    else
      var n := FreeSuffix(cand, t.names.Keys, t.counter + 1);
      var tok := Suffixed(cand, n);
      (t.(names := t.names[tok := lit], counter := n), tok)
  }

  /** A value token for the value `v` at `path`, from the candidate `cand`. */
  function AllocValue(t: Table, cand: string, path: Path, v: Value): (r: (Table, string))
    ensures r.0 == t.(values := t.values[r.1 := v], owners := t.owners[r.1 := path], counter := r.0.counter)
    ensures r.1 in t.owners ==> t.owners[r.1] == path
    ensures Reusable(t.owners, cand, path) ==> r.1 == cand && r.0.counter == t.counter
    ensures !Reusable(t.owners, cand, path) ==>
      r.1 == Suffixed(cand, r.0.counter) && r.0.counter > t.counter && r.1 !in t.owners
  {
    if Reusable(t.owners, cand, path) then (t.(values := t.values[cand := v], owners := t.owners[cand := path]), cand)
    else
      var n := FreeSuffix(cand, t.owners.Keys, t.counter + 1);
      var tok := Suffixed(cand, n);
      (t.(values := t.values[tok := v], owners := t.owners[tok := path], counter := n), tok)
  }

  /** Every token in the tables fits the ceiling. */
  ghost predicate WithinCeiling(t: Table) {
    && (forall tok :: tok in t.names ==> |tok| <= MaxTokenLength)
    && (forall tok :: tok in t.owners ==> |tok| <= MaxTokenLength)
    && (forall tok :: tok in t.values ==> |tok| <= MaxTokenLength)
  }

  /** The 255-character ceiling: allocation keeps every token within it while the counter has at most 255 digits. */
  lemma AllocNameCeiling(t: Table, cand: string, lit: string)
    ensures WithinCeiling(t) && |Digits(AllocName(t, cand, lit).0.counter)| <= MaxTokenLength ==>
      WithinCeiling(AllocName(t, cand, lit).0)
  {
    var r := AllocName(t, cand, lit);
    if !Reusable(t.names, cand, lit) {
      assert r.1 == Suffixed(cand, r.0.counter);
    }
  }

  lemma AllocValueCeiling(t: Table, cand: string, path: Path, v: Value)
    ensures WithinCeiling(t) && |Digits(AllocValue(t, cand, path, v).0.counter)| <= MaxTokenLength ==>
      WithinCeiling(AllocValue(t, cand, path, v).0)
  {
    var r := AllocValue(t, cand, path, v);
    if !Reusable(t.owners, cand, path) {
      assert r.1 == Suffixed(cand, r.0.counter);
    }
  }

  function SegmentWords(seg: Segment): seq<string> {
    match seg
    case Key(k) => Words(k)
    case Index(i) => [Digits(i)]
  }

  /** The words of every segment, root to leaf, list indices as numerals. */
  function PathWords(path: Path): seq<string> {
    if path == [] then [] else SegmentWords(path[0]) + PathWords(path[1..])
  }

  /** `#` and the camel-cased words of the namespace prefix and the key. */
  function NameCandidate(prefix: string, key: string): string {
    "#" + CamelCase(Words(prefix) + Words(key))
  }

  /** `:` and the camel-cased words of the namespace prefix and the whole path. */
  function ValueCandidate(prefix: string, path: Path): string {
    ":" + CamelCase(Words(prefix) + PathWords(path))
  }

  /** How one segment of a path appears in an expression: a name token, or a literal index. */
  datatype Step = NameStep(token: string) | IndexStep(i: nat)

  function StepText(step: Step, first: bool): string {
    match step
    case NameStep(tok) => if first then tok else "." + tok
    case IndexStep(i) => "[" + Digits(i) + "]"
  }

  /** The aliased path as it is written in an expression: `#a.#b[2]`. */
  function StepsText(steps: seq<Step>): string {
    if steps == [] then ""
    else StepsText(steps[..|steps| - 1]) + StepText(steps[|steps| - 1], |steps| == 1)
  }

  /** The steps spell `path` through the names table: each key by a token bound to that key, each index as itself. */
  ghost predicate StepsMatch(steps: seq<Step>, path: Path, names: map<string, string>) {
    && |steps| == |path|
    && forall j :: 0 <= j < |path| ==>
      match path[j]
      case Key(k) => steps[j].NameStep? && steps[j].token in names && names[steps[j].token] == k
      case Index(i) => steps[j] == IndexStep(i)
  }

  /** `b` is `a` with more bindings: no token is dropped or rebound to another literal or path. */
  ghost predicate Extends(a: Table, b: Table) {
    && (forall tok :: tok in a.names ==> tok in b.names && b.names[tok] == a.names[tok])
    && (forall tok :: tok in a.owners ==> tok in b.owners && b.owners[tok] == a.owners[tok])
    && a.counter <= b.counter
  }

  lemma ExtendsTrans(a: Table, b: Table, c: Table)
    requires Extends(a, b) && Extends(b, c)
    ensures Extends(a, c)
  {
  }

  lemma StepsMatchExtends(steps: seq<Step>, path: Path, a: Table, b: Table)
    requires StepsMatch(steps, path, a.names) && Extends(a, b)
    ensures StepsMatch(steps, path, b.names)
  {
    forall j | 0 <= j < |path|
      ensures match path[j]
        case Key(k) => steps[j].NameStep? && steps[j].token in b.names && b.names[steps[j].token] == k
        case Index(i) => steps[j] == IndexStep(i)
    {
    }
  }

  /** How one segment is spelt through the names table: a key by a token bound to it, an index as itself. */
  ghost predicate StepMatches(step: Step, seg: Segment, names: map<string, string>) {
    match seg
    case Key(k) => step.NameStep? && step.token in names && names[step.token] == k
    case Index(i) => step == IndexStep(i)
  }

  lemma StepsMatchSnoc(steps: seq<Step>, path: Path, names: map<string, string>, step: Step, seg: Segment)
    requires StepsMatch(steps, path, names) && StepMatches(step, seg, names)
    ensures StepsMatch(steps + [step], path + [seg], names)
  {
    var s', p' := steps + [step], path + [seg];
    forall j | 0 <= j < |p'|
      ensures match p'[j]
        case Key(k) => s'[j].NameStep? && s'[j].token in names && names[s'[j].token] == k
        case Index(i) => s'[j] == IndexStep(i)
    {
      if j < |path| {
        assert p'[j] == path[j] && s'[j] == steps[j];
      } else {
        assert p'[j] == seg && s'[j] == step;
      }
    }
  }

  /** Names the key segments of `path`, left to right. */
  function AliasSteps(t: Table, prefix: string, path: Path): (r: (Table, seq<Step>))
    ensures StepsMatch(r.1, path, r.0.names)
    ensures Extends(t, r.0) && r.0.values == t.values && r.0.owners == t.owners
    decreases |path|
  {
    if path == [] then (t, [])
    else
      var front := path[..|path| - 1];
      var last := path[|path| - 1];
      assert path == front + [last];
      var rest := AliasSteps(t, prefix, front);
      match last
      case Key(k) =>
        var one := AllocName(rest.0, NameCandidate(prefix, k), k);
        StepsMatchExtends(rest.1, front, rest.0, one.0);
        StepsMatchSnoc(rest.1, front, one.0.names, NameStep(one.1), last);
        (one.0, rest.1 + [NameStep(one.1)])
      case Index(i) =>
        StepsMatchSnoc(rest.1, front, rest.0.names, IndexStep(i), last);
        (rest.0, rest.1 + [IndexStep(i)])
  }

  /** Naming a path keeps every token within the ceiling while the counter has at most 255 digits. */
  lemma {:induction false} AliasStepsCeiling(t: Table, prefix: string, path: Path)
    requires WithinCeiling(t) && |Digits(AliasSteps(t, prefix, path).0.counter)| <= MaxTokenLength
    ensures WithinCeiling(AliasSteps(t, prefix, path).0)
    decreases |path|
  {
    if path != [] {
      var front := path[..|path| - 1];
      var t1 := AliasSteps(t, prefix, front).0;
      var t2 := AliasSteps(t, prefix, path).0;
      assert Extends(t1, t2);
      DigitsMonotone(t1.counter, t2.counter);
      AliasStepsCeiling(t, prefix, front);
      match path[|path| - 1]
      case Key(k) =>
        AllocNameCeiling(t1, NameCandidate(prefix, k), k);
      case Index(i) =>
    }
  }
}

=== FILE: assembler.dfy ===
/**
 * The expression assembler (`getUpdateExpression`): orders the change records, aliases
 * their paths and values, and renders `SET …, … REMOVE …` with the two alias tables.
 */
module Assembler {
  import opened Wrappers
  import opened Json
  import opened Decimal
  import opened Differ
  import opened JsonPath
  import opened Sorting
  import opened Aliases

  /** One clause: the aliased path of a record and, for an assignment, its value token. */
  datatype Clause = Clause(path: Path, steps: seq<Step>, token: Option<string>)

  /** The clause's tokens are bound, in `t`, to the keys of its path and (for a value token) to its path. */
  ghost predicate Resolves(c: Clause, t: Table) {
    && StepsMatch(c.steps, c.path, t.names)
    && (c.token.Some? ==> c.token.value in t.owners && t.owners[c.token.value] == c.path)
  }

  lemma ResolvesExtends(c: Clause, a: Table, b: Table)
    requires Resolves(c, a) && Extends(a, b)
    ensures Resolves(c, b)
  {
    StepsMatchExtends(c.steps, c.path, a, b);
  }

  /** Every value entry holds what the document holds at the entry's path. */
  ghost predicate Faithful(t: Table, doc: Value) {
    && t.values.Keys == t.owners.Keys
    && forall tok :: tok in t.owners ==> Get(doc, t.owners[tok]) == Some(t.values[tok])
  }

  /** The `path = :value` clause of an ADD or SET record. */
  function PlanAssign(t: Table, prefix: string, c: Change): (r: (Table, Clause))
    ensures r.1.path == c.path && r.1.token.Some? && Resolves(r.1, r.0) && Extends(t, r.0)
    ensures r.0.values == t.values[r.1.token.value := c.value]
    ensures r.0.owners == t.owners[r.1.token.value := c.path]
    ensures Reusable(t.owners, ValueCandidate(prefix, c.path), c.path) ==> r.1.token.value == ValueCandidate(prefix, c.path)
    ensures !Reusable(t.owners, ValueCandidate(prefix, c.path), c.path) ==> r.1.token.value !in t.owners
  {
    var (t1, steps) := AliasSteps(t, prefix, c.path);
    var (t2, tok) := AllocValue(t1, ValueCandidate(prefix, c.path), c.path, c.value);
    StepsMatchExtends(steps, c.path, t1, t2);
    (t2, Clause(c.path, steps, Some(tok)))
  }

  ghost predicate AllResolve(cs: seq<Clause>, t: Table) {
    forall i :: 0 <= i < |cs| ==> Resolves(cs[i], t)
  }

  lemma AllResolveExtends(cs: seq<Clause>, a: Table, b: Table)
    requires AllResolve(cs, a) && Extends(a, b)
    ensures AllResolve(cs, b)
  {
    forall i | 0 <= i < |cs| ensures Resolves(cs[i], b) {
      ResolvesExtends(cs[i], a, b);
    }
  }

  predicate AllAssign(cs: seq<Clause>) {
    forall i :: 0 <= i < |cs| ==> cs[i].token.Some?
  }

  predicate AllRemove(cs: seq<Clause>) {
    forall i :: 0 <= i < |cs| ==> cs[i].token.None?
  }

  /** The paths of the clauses, in order. */
  function ClausePaths(cs: seq<Clause>): (r: seq<Path>)
    ensures |r| == |cs| && forall i :: 0 <= i < |cs| ==> r[i] == cs[i].path
  {
    if cs == [] then [] else ClausePaths(cs[..|cs| - 1]) + [cs[|cs| - 1].path]
  }

  /** The paths of ADD and SET records, in order. */
  function ChangePaths(cs: seq<Change>): (r: seq<Path>)
    ensures |r| == |cs| && forall i :: 0 <= i < |cs| ==> r[i] == cs[i].path
  {
    seq(|cs|, i requires 0 <= i < |cs| => cs[i].path)
  }

  lemma ChangePathsSnoc(cs: seq<Change>)
    requires cs != []
    ensures ChangePaths(cs) == ChangePaths(cs[..|cs| - 1]) + [cs[|cs| - 1].path]
  {
  }

  lemma ClausePathsAppend(a: seq<Clause>, b: seq<Clause>)
    ensures ClausePaths(a + b) == ClausePaths(a) + ClausePaths(b)
  {
    var l, r := ClausePaths(a + b), ClausePaths(a) + ClausePaths(b);
    assert |l| == |r|;
    forall i | 0 <= i < |l| ensures l[i] == r[i] {
      if i < |a| {
        assert (a + b)[i] == a[i];
      } else {
        assert (a + b)[i] == b[i - |a|];
      }
    }
  }

  lemma AssignsAppend(a: seq<Clause>, b: seq<Clause>, t: Table)
    requires AllAssign(a) && AllResolve(a, t) && AllAssign(b) && AllResolve(b, t)
    ensures AllAssign(a + b) && AllResolve(a + b, t)
  {
    forall i | 0 <= i < |a + b| ensures (a + b)[i].token.Some? && Resolves((a + b)[i], t) {
      if i < |a| {
        assert (a + b)[i] == a[i];
      } else {
        assert (a + b)[i] == b[i - |a|];
      }
    }
  }

  /** One more resolved SET clause keeps a list of resolved SET clauses resolved. */
  lemma AssignsSnoc(cs: seq<Clause>, c: Clause, t: Table)
    requires AllAssign(cs) && AllResolve(cs, t) && c.token.Some? && Resolves(c, t)
    ensures AllAssign(cs + [c]) && AllResolve(cs + [c], t)
    ensures ClausePaths(cs + [c]) == ClausePaths(cs) + [c.path]
  {
    assert (cs + [c])[..|cs|] == cs;
  }

  /** The clauses of a run of ADD or SET records, aliased in order. */
  function PlanAssigns(t: Table, prefix: string, cs: seq<Change>): (r: (Table, seq<Clause>))
    ensures ClausePaths(r.1) == ChangePaths(cs)
    ensures AllAssign(r.1) && AllResolve(r.1, r.0) && Extends(t, r.0)
    ensures t.values.Keys <= r.0.values.Keys
    ensures cs == [] ==> r.0 == t
    ensures cs != [] ==> r.0.values != map[]
    decreases |cs|
  {
    if cs == [] then (t, [])
    else
      var rest := PlanAssigns(t, prefix, cs[..|cs| - 1]);
      var one := PlanAssign(rest.0, prefix, cs[|cs| - 1]);
      AllResolveExtends(rest.1, rest.0, one.0);
      ExtendsTrans(t, rest.0, one.0);
      AssignsSnoc(rest.1, one.1, one.0);
      ChangePathsSnoc(cs);
      assert one.1.token.value in one.0.values;
      (one.0, rest.1 + [one.1])
  }

  /** An assignment keeps the value table faithful to the document it was taken from. */
  lemma PlanAssignFaithful(t: Table, prefix: string, c: Change, doc: Value)
    requires Faithful(t, doc) && Get(doc, c.path) == Some(c.value)
    ensures Faithful(PlanAssign(t, prefix, c).0, doc)
  {
    var r := PlanAssign(t, prefix, c);
    forall tok | tok in r.0.owners
      ensures Get(doc, r.0.owners[tok]) == Some(r.0.values[tok])
    {
      if tok != r.1.token.value {
        assert tok in t.owners;
      }
    }
  }

  /** Assignments keep the value table faithful to the document they were taken from. */
  lemma {:induction false} PlanAssignsFaithful(t: Table, prefix: string, cs: seq<Change>, doc: Value)
    requires Faithful(t, doc)
    requires forall c :: c in cs ==> Get(doc, c.path) == Some(c.value)
    ensures Faithful(PlanAssigns(t, prefix, cs).0, doc)
    decreases |cs|
  {
    if cs != [] {
      var front := cs[..|cs| - 1];
      forall c | c in front ensures Get(doc, c.path) == Some(c.value) {
        assert c in cs;
      }
      PlanAssignsFaithful(t, prefix, front, doc);
      var t1 := PlanAssigns(t, prefix, front).0;
      assert PlanAssigns(t, prefix, cs).0 == PlanAssign(t1, prefix, cs[|cs| - 1]).0;
      assert cs[|cs| - 1] in cs;
      PlanAssignFaithful(t1, prefix, cs[|cs| - 1], doc);
    }
  }

  /** The clause of a DELETE record: its aliased path alone. */
  function PlanRemove(t: Table, prefix: string, p: Path): (r: (Table, Clause))
    ensures r.1.path == p && r.1.token.None? && Resolves(r.1, r.0) && Extends(t, r.0)
    ensures r.0.values == t.values && r.0.owners == t.owners
  {
    var (t1, steps) := AliasSteps(t, prefix, p);
    (t1, Clause(p, steps, None))
  }

  function PlanRemoves(t: Table, prefix: string, ps: seq<Path>): (r: (Table, seq<Clause>))
    ensures ClausePaths(r.1) == ps
    ensures AllRemove(r.1) && AllResolve(r.1, r.0) && Extends(t, r.0)
    ensures r.0.values == t.values && r.0.owners == t.owners
    ensures ps == [] ==> r.0 == t
    decreases |ps|
  {
    if ps == [] then (t, [])
    else
      var (t1, front) := PlanRemoves(t, prefix, ps[..|ps| - 1]);
      var (t2, c) := PlanRemove(t1, prefix, ps[|ps| - 1]);
      AllResolveExtends(front, t1, t2);
      assert ps == ps[..|ps| - 1] + [c.path];
      assert ClausePaths(front + [c]) == ClausePaths(front) + [c.path];
      (t2, front + [c])
  }

  /** The ceiling holds after aliasing one assignment, while the counter has at most 255 digits. */
  lemma PlanAssignCeiling(t: Table, prefix: string, c: Change)
    requires WithinCeiling(t) && |Digits(PlanAssign(t, prefix, c).0.counter)| <= MaxTokenLength
    ensures WithinCeiling(PlanAssign(t, prefix, c).0)
  {
    var t1 := AliasSteps(t, prefix, c.path).0;
    var t2 := PlanAssign(t, prefix, c).0;
    DigitsMonotone(t1.counter, t2.counter);
    AliasStepsCeiling(t, prefix, c.path);
    AllocValueCeiling(t1, ValueCandidate(prefix, c.path), c.path, c.value);
  }

  lemma {:induction false} PlanAssignsCeiling(t: Table, prefix: string, cs: seq<Change>)
    requires WithinCeiling(t) && |Digits(PlanAssigns(t, prefix, cs).0.counter)| <= MaxTokenLength
    ensures WithinCeiling(PlanAssigns(t, prefix, cs).0)
    decreases |cs|
  {
    if cs != [] {
      var t1 := PlanAssigns(t, prefix, cs[..|cs| - 1]).0;
      var t2 := PlanAssigns(t, prefix, cs).0;
      assert t2 == PlanAssign(t1, prefix, cs[|cs| - 1]).0;
      DigitsMonotone(t1.counter, t2.counter);
      PlanAssignsCeiling(t, prefix, cs[..|cs| - 1]);
      PlanAssignCeiling(t1, prefix, cs[|cs| - 1]);
    }
  }

  lemma {:induction false} PlanRemovesCeiling(t: Table, prefix: string, ps: seq<Path>)
    requires WithinCeiling(t) && |Digits(PlanRemoves(t, prefix, ps).0.counter)| <= MaxTokenLength
    ensures WithinCeiling(PlanRemoves(t, prefix, ps).0)
    decreases |ps|
  {
    if ps != [] {
      var t1 := PlanRemoves(t, prefix, ps[..|ps| - 1]).0;
      var t2 := PlanRemoves(t, prefix, ps).0;
      assert t2 == AliasSteps(t1, prefix, ps[|ps| - 1]).0;
      DigitsMonotone(t1.counter, t2.counter);
      PlanRemovesCeiling(t, prefix, ps[..|ps| - 1]);
      AliasStepsCeiling(t1, prefix, ps[|ps| - 1]);
    }
  }

  function ChangeKey(c: Change): string {
    PathString(c.path)
  }

  /** Everything an expression is rendered from: the final tables and the two clause lists. */
  datatype Plan = Plan(table: Table, assigns: seq<Clause>, removes: seq<Clause>)

  /**
   * ADD records sorted by JSONPath text, then SET records sorted likewise, then the
   * DELETE paths sorted likewise; tokens are allocated in that order.
   */
  function PlanChanges(t: Table, prefix: string, d: ChangeSet): (p: Plan)
    ensures Extends(t, p.table)
    ensures ClausePaths(p.assigns) == ChangePaths(SortBy(d.adds, ChangeKey)) + ChangePaths(SortBy(d.sets, ChangeKey))
    ensures ClausePaths(p.removes) == SortBy(d.deletes, PathString)
    ensures AllAssign(p.assigns) && AllResolve(p.assigns, p.table)
    ensures AllRemove(p.removes) && AllResolve(p.removes, p.table)
    ensures d.adds == [] && d.sets == [] ==> p.table.values == t.values
    ensures d.adds != [] || d.sets != [] ==> p.table.values != map[]
    ensures IsEmpty(d) ==> p.table == t
  {
    var adds := SortBy(d.adds, ChangeKey);
    var sets := SortBy(d.sets, ChangeKey);
    var dels := SortBy(d.deletes, PathString);
    var (t1, ca) := PlanAssigns(t, prefix, adds);
    var (t2, cs) := PlanAssigns(t1, prefix, sets);
    var (t3, cr) := PlanRemoves(t2, prefix, dels);
    AllResolveExtends(ca, t1, t2);
    AllResolveExtends(ca, t2, t3);
    AllResolveExtends(cs, t2, t3);
    ExtendsTrans(t, t1, t2);
    ExtendsTrans(t, t2, t3);
    ClausePathsAppend(ca, cs);
    AssignsAppend(ca, cs, t3);
    EmptySorted(d.adds, ChangeKey);
    EmptySorted(d.sets, ChangeKey);
    EmptySorted(d.deletes, PathString);
    Plan(t3, ca + cs, cr)
  }

  /** Every token of a plan fits the ceiling, while the counter has at most 255 digits. */
  lemma PlanChangesCeiling(t: Table, prefix: string, d: ChangeSet)
    requires WithinCeiling(t) && |Digits(PlanChanges(t, prefix, d).table.counter)| <= MaxTokenLength
    ensures WithinCeiling(PlanChanges(t, prefix, d).table)
  {
    var adds := SortBy(d.adds, ChangeKey);
    var sets := SortBy(d.sets, ChangeKey);
    var dels := SortBy(d.deletes, PathString);
    var t1 := PlanAssigns(t, prefix, adds).0;
    var t2 := PlanAssigns(t1, prefix, sets).0;
    var t3 := PlanRemoves(t2, prefix, dels).0;
    assert t3 == PlanChanges(t, prefix, d).table;
    DigitsMonotone(t1.counter, t3.counter);
    DigitsMonotone(t2.counter, t3.counter);
    PlanAssignsCeiling(t, prefix, adds);
    PlanAssignsCeiling(t1, prefix, sets);
    PlanRemovesCeiling(t2, prefix, dels);
  }

  lemma EmptySorted<T>(s: seq<T>, key: T -> string)
    ensures SortBy(s, key) == [] <==> s == []
  {
    if s != [] {
      assert s[0] in multiset(s);
    }
  }

  function ClauseText(c: Clause): string {
    StepsText(c.steps) + (if c.token.Some? then " = " + c.token.value else "")
  }

  /** The clauses' texts separated by ", ". */
  function ClausesText(cs: seq<Clause>): string {
    if cs == [] then ""
    else if |cs| == 1 then ClauseText(cs[0])
    else ClausesText(cs[..|cs| - 1]) + ", " + ClauseText(cs[|cs| - 1])
  }

  /** `SET …` when there is an assignment, `REMOVE …` when there is a removal, both separated by a space, or nothing. */
  function Render(assigns: seq<Clause>, removes: seq<Clause>): (s: string)
    ensures s == "" <==> assigns == [] && removes == []
  {
    var setPart := if assigns == [] then "" else "SET " + ClausesText(assigns);
    var removePart := if removes == [] then "" else "REMOVE " + ClausesText(removes);
    if setPart != "" && removePart != "" then setPart + " " + removePart else setPart + removePart
  }

  /** The result object; an alias table is present only when it has an entry. */
  datatype Expression = Expression(
    updateExpression: string,
    names: Option<map<string, string>>,
    values: Option<map<string, Value>>)

  function TablesOf(text: string, t: Table): Expression {
    Expression(text,
      if t.names == map[] then None else Some(t.names),
      if t.values == map[] then None else Some(t.values))
  }

  /** `getUpdateExpression({original, modified, orphans = false})`. */
  function GetUpdateExpression(original: seq<Field>, modified: seq<Field>, orphans: bool := false): Expression {
    var p := PlanChanges(EmptyTable, "", Diff(original, modified, orphans));
    TablesOf(Render(p.assigns, p.removes), p.table)
  }
}

=== FILE: assembler_props.dfy ===
/** What `getUpdateExpression` promises about the text and tables it returns. */
module AssemblerProperties {
  import opened Wrappers
  import opened Json
  import opened Decimal
  import opened Differ
  import opened JsonPath
  import opened Sorting
  import opened Aliases
  import opened Assembler
  import opened DiffSoundness
  import opened DiffEquivalence

  lemma SortByLength<T>(s: seq<T>, key: T -> string)
    ensures |SortBy(s, key)| == |s|
  {
    assert |multiset(SortBy(s, key))| == |multiset(s)|;
  }

  lemma SortByMember<T>(s: seq<T>, key: T -> string, x: T)
    requires x in SortBy(s, key)
    ensures x in s
  {
    assert x in multiset(SortBy(s, key));
  }

  /** The plan `getUpdateExpression` renders. */
  function PlanOf(original: seq<Field>, modified: seq<Field>, orphans: bool): Plan {
    PlanChanges(EmptyTable, "", Diff(original, modified, orphans))
  }

  /** The plan has one assignment per ADD and SET record and one removal per DELETE record. */
  lemma PlanSizes(t: Table, prefix: string, d: ChangeSet)
    ensures |PlanChanges(t, prefix, d).assigns| == |d.adds| + |d.sets|
    ensures |PlanChanges(t, prefix, d).removes| == |d.deletes|
  {
    var p := PlanChanges(t, prefix, d);
    SortByLength(d.adds, ChangeKey);
    SortByLength(d.sets, ChangeKey);
    SortByLength(d.deletes, PathString);
    assert |ClausePaths(p.assigns)| == |p.assigns|;
    assert |ClausePaths(p.removes)| == |p.removes|;
  }

  /**
   * The update expression is empty exactly when the two documents are equal up to the order
   * of map keys, and then neither alias table is present.
   */
  lemma UpdateExpressionEmpty(original: seq<Field>, modified: seq<Field>, orphans: bool)
    requires WellFormed(Obj(original)) && WellFormed(Obj(modified))
    ensures GetUpdateExpression(original, modified, orphans).updateExpression == ""
      <==> Equiv(Obj(original), Obj(modified))
    ensures GetUpdateExpression(original, modified, orphans).updateExpression == "" ==>
      GetUpdateExpression(original, modified, orphans).names.None? &&
      GetUpdateExpression(original, modified, orphans).values.None?
  {
    PlanSizes(EmptyTable, "", Diff(original, modified, orphans));
    DiffEmptyIff(original, modified, orphans);
  }

  /** Every record of a diff of two maps names a path that starts with a key. */
  lemma RecordsStartWithKey(original: seq<Field>, modified: seq<Field>, orphans: bool)
    requires WellFormed(Obj(original)) && WellFormed(Obj(modified))
    ensures forall c :: c in Diff(original, modified, orphans).adds ==> c.path != [] && c.path[0].Key?
    ensures forall c :: c in Diff(original, modified, orphans).sets ==> c.path != [] && c.path[0].Key?
    ensures forall p: Path :: p in Diff(original, modified, orphans).deletes ==> p != [] && p[0].Key?
  {
    var d := Diff(original, modified, orphans);
    var o, m := Obj(original), Obj(modified);
    DiffSound(original, modified, orphans);
    forall c | c in d.adds ensures c.path != [] && c.path[0].Key? {
      assert AddOk([], o, m, orphans, c);
      assert c.path[0..] == c.path;
    }
    forall c | c in d.sets ensures c.path != [] && c.path[0].Key? {
      assert SetOk([], o, m, c);
      assert c.path[0..] == c.path;
    }
    forall q: Path | q in d.deletes ensures q != [] && q[0].Key? {
      assert DeleteOk([], o, m, q);
      assert q[0..] == q;
    }
  }

  /** A resolved clause whose path starts with a key has put a token in the names table. */
  lemma NamedClause(c: Clause, t: Table)
    requires Resolves(c, t) && c.path != [] && c.path[0].Key?
    ensures t.names != map[]
  {
    assert c.steps[0].token in t.names;
  }

  /** A plan of at least one record whose paths all start with a key has a name token. */
  lemma PlanNamed(t: Table, prefix: string, d: ChangeSet)
    requires forall c :: c in d.adds ==> c.path != [] && c.path[0].Key?
    requires forall c :: c in d.sets ==> c.path != [] && c.path[0].Key?
    requires forall q: Path :: q in d.deletes ==> q != [] && q[0].Key?
    requires !IsEmpty(d)
    ensures PlanChanges(t, prefix, d).table.names != map[]
  {
    var p := PlanChanges(t, prefix, d);
    PlanSizes(t, prefix, d);
    SortByLength(d.adds, ChangeKey);
    SortByLength(d.sets, ChangeKey);
    SortByLength(d.deletes, PathString);
    var adds, sets := SortBy(d.adds, ChangeKey), SortBy(d.sets, ChangeKey);
    if d.adds != [] {
      SortByMember(d.adds, ChangeKey, adds[0]);
      assert ClausePaths(p.assigns)[0] == ChangePaths(adds)[0];
      NamedClause(p.assigns[0], p.table);
    } else if d.sets != [] {
      SortByMember(d.sets, ChangeKey, sets[0]);
      assert ClausePaths(p.assigns)[0] == ChangePaths(sets)[0];
      NamedClause(p.assigns[0], p.table);
    } else {
      var dels := SortBy(d.deletes, PathString);
      SortByMember(d.deletes, PathString, dels[0]);
      assert ClausePaths(p.removes)[0] == dels[0];
      NamedClause(p.removes[0], p.table);
    }
  }

  /**
   * The names table is present exactly when there is a change; the values table exactly
   * when there is an ADD or SET record (a REMOVE-only expression has names but no values).
   */
  lemma TablesPresent(original: seq<Field>, modified: seq<Field>, orphans: bool)
    requires WellFormed(Obj(original)) && WellFormed(Obj(modified))
    ensures GetUpdateExpression(original, modified, orphans).names.Some?
      <==> !IsEmpty(Diff(original, modified, orphans))
    ensures GetUpdateExpression(original, modified, orphans).values.Some?
      <==> Diff(original, modified, orphans).adds != [] || Diff(original, modified, orphans).sets != []
  {
    var d := Diff(original, modified, orphans);
    var p := PlanOf(original, modified, orphans);
    assert GetUpdateExpression(original, modified, orphans) == TablesOf(Render(p.assigns, p.removes), p.table);
    if !IsEmpty(d) {
      RecordsStartWithKey(original, modified, orphans);
      PlanNamed(EmptyTable, "", d);
    }
  }

  /** Every value token is bound to what the modified document holds at the token's path. */
  lemma ValuesFaithful(original: seq<Field>, modified: seq<Field>, orphans: bool)
    requires WellFormed(Obj(original)) && WellFormed(Obj(modified))
    ensures Faithful(PlanOf(original, modified, orphans).table, Obj(modified))
  {
    var d := Diff(original, modified, orphans);
    var o, m := Obj(original), Obj(modified);
    DiffSound(original, modified, orphans);
    var adds, sets := SortBy(d.adds, ChangeKey), SortBy(d.sets, ChangeKey);
    forall c | c in adds ensures Get(m, c.path) == Some(c.value) {
      SortByMember(d.adds, ChangeKey, c);
      assert AddOk([], o, m, orphans, c);
      assert c.path[0..] == c.path;
    }
    forall c | c in sets ensures Get(m, c.path) == Some(c.value) {
      SortByMember(d.sets, ChangeKey, c);
      assert SetOk([], o, m, c);
      assert c.path[0..] == c.path;
    }
    PlanAssignsFaithful(EmptyTable, "", adds, m);
    var t1 := PlanAssigns(EmptyTable, "", adds).0;
    PlanAssignsFaithful(t1, "", sets, m);
  }

  /**
   * The 255-character ceiling: every token of both tables, sigil included, fits, as long
   * as the suffix counter has at most 255 digits.
   */
  lemma UpdateExpressionCeiling(original: seq<Field>, modified: seq<Field>, orphans: bool)
    requires |Digits(PlanOf(original, modified, orphans).table.counter)| <= MaxTokenLength
    ensures var e := GetUpdateExpression(original, modified, orphans);
      && (e.names.Some? ==> forall tok :: tok in e.names.value ==> |tok| <= MaxTokenLength)
      && (e.values.Some? ==> forall tok :: tok in e.values.value ==> |tok| <= MaxTokenLength)
  {
    PlanChangesCeiling(EmptyTable, "", Diff(original, modified, orphans));
  }
}

=== FILE: camel.dfy ===
/**
 * Word splitting and camel-casing of attribute names, as the alias tokens use them,
 * for ASCII text: letters and digits form words, everything else separates them.
 */
module Camel {
  import opened Decimal

  predicate IsUpper(c: char) { 'A' <= c <= 'Z' }
  predicate IsLower(c: char) { 'a' <= c <= 'z' }
  predicate IsAlnum(c: char) { IsUpper(c) || IsLower(c) || IsDigit(c) }

  function ToLower(c: char): char { if IsUpper(c) then (c as int + 32) as char else c }
  function ToUpper(c: char): char { if IsLower(c) then (c as int - 32) as char else c }

  function LowerStr(s: string): (r: string)
    ensures |r| == |s|
  {
    seq(|s|, i requires 0 <= i < |s| => ToLower(s[i]))
  }

  /** Apostrophes are dropped before splitting, so "don't" is one word. */
  function DropApostrophes(s: string): (r: string)
    ensures forall c :: c in r <==> c in s && c != '\'' && c != '’'
  {
    if s == [] then []
    else if s[0] == '\'' || s[0] == '’' then DropApostrophes(s[1..])
    else [s[0]] + DropApostrophes(s[1..])
  }

  /**
   * Whether a new word starts at position `j`: after a lower-case letter at an upper-case
   * one, between a digit and a letter, and at the last capital of a run of capitals that
   * is followed by a lower-case letter ("AVery" is "A" then "Very").
   */
  predicate Boundary(s: string, j: nat)
    requires 1 <= j < |s|
  {
    || (IsLower(s[j - 1]) && IsUpper(s[j]))
    || (IsDigit(s[j - 1]) != IsDigit(s[j]))
    || (IsUpper(s[j - 1]) && IsUpper(s[j]) && j + 1 < |s| && IsLower(s[j + 1]))
  }

  /** End of the word that runs through position `j - 1`. */
  function WordEnd(s: string, j: nat): (e: nat)
    requires 1 <= j <= |s|
    ensures j <= e <= |s|
    ensures forall i :: j <= i < e ==> IsAlnum(s[i])
    decreases |s| - j
  {
    if j == |s| || !IsAlnum(s[j]) || Boundary(s, j) then j else WordEnd(s, j + 1)
  }

  function Split(s: string): seq<string>
    decreases |s|
  {
    if s == [] then []
    else if !IsAlnum(s[0]) then Split(s[1..])
    else
      var e := WordEnd(s, 1);
      [s[..e]] + Split(s[e..])
  }

  /** The words of a name, in order. */
  function Words(s: string): seq<string> {
    Split(DropApostrophes(s))
  }

  function Concat(ws: seq<string>): string {
    if ws == [] then "" else ws[0] + Concat(ws[1..])
  }

  /** The letters and digits of `s`, in order. */
  function Alnums(s: string): (r: string)
    ensures forall i :: 0 <= i < |r| ==> IsAlnum(r[i])
  {
    if s == [] then "" else if IsAlnum(s[0]) then [s[0]] + Alnums(s[1..]) else Alnums(s[1..])
  }

  /** Splitting loses no letter or digit and keeps them in order; every word is a non-empty run of them. */
  lemma {:induction false} SplitConcat(s: string)
    ensures Concat(Split(s)) == Alnums(s)
    ensures forall w :: w in Split(s) ==> w != [] && forall i :: 0 <= i < |w| ==> IsAlnum(w[i])
    decreases |s|
  {
    if s != [] {
      if !IsAlnum(s[0]) {
        SplitConcat(s[1..]);
      } else {
        var e := WordEnd(s, 1);
        SplitConcat(s[e..]);
        AlnumsRun(s, e);
        assert s == s[..e] + s[e..];
        AlnumsAppend(s[..e], s[e..]);
      }
    }
  }

  lemma {:induction false} AlnumsAppend(a: string, b: string)
    ensures Alnums(a + b) == Alnums(a) + Alnums(b)
    decreases |a|
  {
    if a != [] {
      assert (a + b)[1..] == a[1..] + b;
      assert (a + b)[0] == a[0];
      AlnumsAppend(a[1..], b);
      if IsAlnum(a[0]) {
        assert Alnums(a + b) == [a[0]] + Alnums(a[1..] + b);
        assert [a[0]] + (Alnums(a[1..]) + Alnums(b)) == ([a[0]] + Alnums(a[1..])) + Alnums(b);
      } else {
        assert Alnums(a + b) == Alnums(a[1..] + b);
      }
    } else {
      assert a + b == b;
    }
  }

  lemma {:induction false} AlnumsRun(s: string, e: nat)
    requires e <= |s| && forall i :: 0 <= i < e ==> IsAlnum(s[i])
    ensures Alnums(s[..e]) == s[..e]
    decreases e
  {
    if e > 0 {
      assert s[..e][1..] == s[1..][..e - 1];
      AlnumsRun(s[1..], e - 1);
    }
  }

  /** A word with its first character upper-cased and the rest lower-cased. */
  function Capitalize(w: string): (r: string)
    ensures |r| == |w|
  {
    if w == [] then [] else [ToUpper(w[0])] + LowerStr(w[1..])
  }

  function CapitalizeAll(ws: seq<string>): string {
    if ws == [] then "" else Capitalize(ws[0]) + CapitalizeAll(ws[1..])
  }

  /** The first word in lower case, every further word capitalized, joined without separators. */
  function CamelCase(ws: seq<string>): string {
    if ws == [] then "" else LowerStr(ws[0]) + CapitalizeAll(ws[1..])
  }

  lemma LowerAppend(a: string, b: string)
    ensures LowerStr(a + b) == LowerStr(a) + LowerStr(b)
  {
  }

  lemma LowerUpper(c: char)
    ensures ToLower(ToUpper(c)) == ToLower(c)
  {
  }

  lemma LowerLower(s: string)
    ensures LowerStr(LowerStr(s)) == LowerStr(s)
  {
  }

  /** Capitalizing a word only changes letter case. */
  lemma CapitalizeLower(w: string)
    ensures LowerStr(Capitalize(w)) == LowerStr(w)
  {
    if w != [] {
      LowerUpper(w[0]);
      LowerAppend([ToUpper(w[0])], LowerStr(w[1..]));
      LowerLower(w[1..]);
      assert w == [w[0]] + w[1..];
      LowerAppend([w[0]], w[1..]);
    }
  }

  lemma {:induction false} CapitalizeAllLower(ws: seq<string>)
    ensures LowerStr(CapitalizeAll(ws)) == LowerStr(Concat(ws))
  {
    if ws != [] {
      CapitalizeAllLower(ws[1..]);
      LowerAppend(Capitalize(ws[0]), CapitalizeAll(ws[1..]));
      LowerAppend(ws[0], Concat(ws[1..]));
      CapitalizeLower(ws[0]);
    }
  }

  lemma {:induction false} CapitalizeAllLength(ws: seq<string>)
    ensures |CapitalizeAll(ws)| == |Concat(ws)|
  {
    if ws != [] {
      CapitalizeAllLength(ws[1..]);
    }
  }

  /** camelCase keeps the length of the words run together. */
  lemma CamelCaseLength(ws: seq<string>)
    ensures |CamelCase(ws)| == |Concat(ws)|
  {
    if ws != [] {
      CapitalizeAllLength(ws[1..]);
    }
  }

  /** camelCase only changes letter case: ignoring case, it is the words run together. */
  lemma CamelCaseLower(ws: seq<string>)
    ensures LowerStr(CamelCase(ws)) == LowerStr(Concat(ws))
  {
    if ws != [] {
      CapitalizeAllLower(ws[1..]);
      LowerAppend(ws[0], CapitalizeAll(ws[1..]));
      LowerAppend(ws[0], Concat(ws[1..]));
      LowerAppend(LowerStr(ws[0]), CapitalizeAll(ws[1..]));
      LowerLower(ws[0]);
    }
  }
}

=== FILE: decimal.dfy ===
/** Decimal rendering of natural numbers: list indices in paths and the numeric suffix of long tokens. */
module Decimal {
  predicate IsDigit(c: char) {
    '0' <= c <= '9'
  }

  function DigitChar(d: nat): (c: char)
    requires d < 10
    ensures IsDigit(c) && c as int - '0' as int == d
  {
    ('0' as int + d) as char
  }

  /** The shortest decimal numeral of `n`. */
  function Digits(n: nat): (s: string)
    ensures |s| >= 1
    ensures forall i :: 0 <= i < |s| ==> IsDigit(s[i])
    ensures |s| > 1 ==> s[0] != '0'
  {
    if n < 10 then [DigitChar(n)] else Digits(n / 10) + [DigitChar(n % 10)]
  }

  /** The number a string of digits denotes. */
  function Denotes(s: string): nat
    requires forall i :: 0 <= i < |s| ==> IsDigit(s[i])
  {
    if s == [] then 0
    else
      assert IsDigit(s[|s| - 1]);
      10 * Denotes(s[..|s| - 1]) + (s[|s| - 1] as int - '0' as int)
  }

  /** Reading a numeral back gives the number: Digits is injective. */
  lemma {:induction false} DenotesDigits(n: nat)
    ensures Denotes(Digits(n)) == n
  {
    if n >= 10 {
      DenotesDigits(n / 10);
      var s := Digits(n);
      assert s[..|s| - 1] == Digits(n / 10);
    }
  }

  lemma DigitsInjective(m: nat, n: nat)
    requires Digits(m) == Digits(n)
    ensures m == n
  {
    DenotesDigits(m);
    DenotesDigits(n);
  }

  function Pow10(k: nat): (r: nat)
    ensures r >= 1
  {
    if k == 0 then 1 else 10 * Pow10(k - 1)
  }

  /** A numeral has k+1 digits exactly when the number lies in [10^k, 10^(k+1)), or k = 0. */
  lemma {:induction false} DigitsLength(n: nat, k: nat)
    requires (k == 0 || Pow10(k) <= n) && n < Pow10(k + 1)
    ensures |Digits(n)| == k + 1
  {
    if k > 0 {
      DigitsLength(n / 10, k - 1);
    }
  }

  /** A number is below 10 to the power of its own length. */
  lemma {:induction false} BelowPow10(n: nat)
    ensures n < Pow10(|Digits(n)|)
  {
    if n >= 10 {
      BelowPow10(n / 10);
    }
  }

  /** Larger numbers need at least as many digits. */
  lemma {:induction false} DigitsMonotone(m: nat, n: nat)
    requires m <= n
    ensures |Digits(m)| <= |Digits(n)|
  {
    if m >= 10 {
      DigitsMonotone(m / 10, n / 10);
    }
  }
}

=== FILE: diff_complete.dfy ===
/**
 * The converse of soundness: every difference between the two documents is reported.
 * A node only the original has lies at or below a DELETE or a SET record;
 * a node only the modified document has lies at or below an ADD (or a SET), and with
 * orphans a new leaf has an ADD of its own; a node both documents hold with values
 * that are not both maps or both lists gets a SET, or a DELETE when blanked, at
 * exactly its path. Differences inside two maps or two lists are found at their
 * children, so nothing the documents disagree on goes unreported.
 */
module DiffCompleteness {
  import opened Wrappers
  import opened Json
  import opened Differ

  /** Some DELETE record is at `p` or above it. */
  ghost predicate DeletedAbove(d: ChangeSet, p: Path) {
    exists q :: q in d.deletes && q <= p
  }

  /** Some SET record is at `p` or above it. */
  ghost predicate SetAbove(d: ChangeSet, p: Path) {
    exists c :: c in d.sets && c.path <= p
  }

  /** Some ADD record is at `p` or above it. */
  ghost predicate AddedAbove(d: ChangeSet, p: Path) {
    exists c :: c in d.adds && c.path <= p
  }

  /** What `d` must report about the node at `p` below `base`, given the two subtrees `o` and `m` at `base`. */
  ghost predicate Reported(base: Path, o: Value, m: Value, orphans: bool, d: ChangeSet, p: Path) {
    && (Get(o, p).Some? && Get(m, p).None? ==> DeletedAbove(d, base + p) || SetAbove(d, base + p))
    && (Get(o, p).None? && Get(m, p).Some? && !orphans ==> SetAbove(d, base + p) || AddedAbove(d, base + p))
    && (Get(o, p).None? && Get(m, p).Some? && orphans && IsLeaf(Get(m, p).value) ==>
          SetAbove(d, base + p) || Change(base + p, Get(m, p).value) in d.adds)
    && (Get(o, p).Some? && Get(m, p).Some? && Get(o, p) != Get(m, p) && !SameKind(Get(o, p).value, Get(m, p).value) ==>
          if Blank(Get(m, p).value) then base + p in d.deletes else Change(base + p, Get(m, p).value) in d.sets)
  }

  /** Every record of `a` is a record of `b`. */
  ghost predicate Within(a: ChangeSet, b: ChangeSet) {
    && (forall c :: c in a.adds ==> c in b.adds)
    && (forall c :: c in a.sets ==> c in b.sets)
    && (forall q :: q in a.deletes ==> q in b.deletes)
  }

  /** A record above `x` in `a` is a record above `x` in any `b` that holds all of `a`. */
  lemma AboveWithin(a: ChangeSet, b: ChangeSet, x: Path)
    requires Within(a, b)
    ensures DeletedAbove(a, x) ==> DeletedAbove(b, x)
    ensures SetAbove(a, x) ==> SetAbove(b, x)
    ensures AddedAbove(a, x) ==> AddedAbove(b, x)
  {
    if DeletedAbove(a, x) {
      var q :| q in a.deletes && q <= x;
      assert q in b.deletes;
    }
    if SetAbove(a, x) {
      var c :| c in a.sets && c.path <= x;
      assert c in b.sets;
    }
    if AddedAbove(a, x) {
      var c :| c in a.adds && c.path <= x;
      assert c in b.adds;
    }
  }

  /** What a smaller set of records reports, a larger one reports too. */
  lemma ReportedWithin(base: Path, o: Value, m: Value, orphans: bool, a: ChangeSet, b: ChangeSet, p: Path)
    requires Reported(base, o, m, orphans, a, p) && Within(a, b)
    ensures Reported(base, o, m, orphans, b, p)
  {
    AboveWithin(a, b, base + p);
  }

  /** Reading the child `seg` first and then `rest`; a node below the root belongs to a container of the segment's kind. */
  lemma GetChild(v: Value, seg: Segment, rest: Path)
    ensures Get(v, [seg] + rest) == (if Get(v, [seg]).Some? then Get(Get(v, [seg]).value, rest) else None)
    ensures Get(v, [seg] + rest).Some? && seg.Key? ==> v.Obj?
    ensures Get(v, [seg] + rest).Some? && seg.Index? ==> v.List?
  {
    assert ([seg] + rest)[1..] == rest;
    assert [seg][1..] == [];
  }

  /** What is reported about `rest` below the child `seg` is reported about `[seg] + rest` below the parent. */
  lemma ReportedChild(base: Path, seg: Segment, o: Value, m: Value, o': Value, m': Value, orphans: bool,
                      d: ChangeSet, rest: Path)
    requires Get(o, [seg]) == Some(o') && Get(m, [seg]) == Some(m')
    requires Reported(base + [seg], o', m', orphans, d, rest)
    ensures Reported(base, o, m, orphans, d, [seg] + rest)
  {
    GetChild(o, seg, rest);
    GetChild(m, seg, rest);
    assert base + ([seg] + rest) == base + [seg] + rest;
  }

  /** The records of the `j`-th original key are among those `DiffFields` gives from position `i`. */
  lemma {:induction false} FieldsFrom(base: Path, ofs: seq<Field>, mfs: seq<Field>, i: nat, j: nat, orphans: bool)
    requires i <= j < |ofs|
    ensures HasKey(mfs, ofs[j].key) ==>
      Within(DiffValues(base + [Key(ofs[j].key)], ofs[j].val, mfs[KeyIndex(mfs, ofs[j].key)].val, orphans),
             DiffFields(base, ofs, mfs, i, orphans))
    ensures !HasKey(mfs, ofs[j].key) ==> base + [Key(ofs[j].key)] in DiffFields(base, ofs, mfs, i, orphans).deletes
    decreases j - i
  {
    if i < j {
      FieldsFrom(base, ofs, mfs, i + 1, j, orphans);
    }
  }

  /** The additions of the `j`-th modified key, when the original lacks it, are among those `NewFields` gives from `i`. */
  lemma {:induction false} NewFieldsFrom(base: Path, ofs: seq<Field>, mfs: seq<Field>, i: nat, j: nat, orphans: bool)
    requires i <= j < |mfs| && !HasKey(ofs, mfs[j].key)
    ensures forall c :: c in Added(base + [Key(mfs[j].key)], mfs[j].val, orphans) ==>
      c in NewFields(base, ofs, mfs, i, orphans)
    decreases j - i
  {
    if i < j {
      NewFieldsFrom(base, ofs, mfs, i + 1, j, orphans);
    }
  }

  /** The records of slot `j` are among those `DiffItems` gives from slot `i`. */
  lemma {:induction false} ItemsFrom(base: Path, ois: seq<Value>, mis: seq<Value>, i: nat, j: nat, orphans: bool)
    requires i <= j
    ensures j < |ois| && j < |mis| ==>
      Within(DiffValues(base + [Index(j)], ois[j], mis[j], orphans), DiffItems(base, ois, mis, i, orphans))
    ensures |mis| <= j < |ois| ==> base + [Index(j)] in DiffItems(base, ois, mis, i, orphans).deletes
    ensures |ois| <= j < |mis| ==>
      forall c :: c in Added(base + [Index(j)], mis[j], orphans) ==> c in DiffItems(base, ois, mis, i, orphans).adds
    decreases j - i
  {
    if i < j {
      ItemsFrom(base, ois, mis, i + 1, j, orphans);
    }
  }

  /** The leaf records of the children from position `i` include those of child `j`. */
  lemma {:induction false} FieldLeavesFrom(path: Path, fields: seq<Field>, i: nat, j: nat)
    requires i <= j < |fields|
    ensures forall c :: c in LeafChanges(path + [Key(fields[j].key)], fields[j].val) ==> c in FieldLeaves(path, fields, i)
    decreases j - i
  {
    if i < j {
      FieldLeavesFrom(path, fields, i + 1, j);
    }
  }

  lemma {:induction false} ItemLeavesFrom(path: Path, items: seq<Value>, i: nat, j: nat)
    requires i <= j < |items|
    ensures forall c :: c in LeafChanges(path + [Index(j)], items[j]) ==> c in ItemLeaves(path, items, i)
    decreases j - i
  {
    if i < j {
      ItemLeavesFrom(path, items, i + 1, j);
    }
  }

  /** Every leaf of `v` has its own record among the leaf records of `v`. */
  lemma {:induction false} LeafListed(path: Path, v: Value, rest: Path)
    requires Get(v, rest).Some? && IsLeaf(Get(v, rest).value)
    ensures Change(path + rest, Get(v, rest).value) in LeafChanges(path, v)
    decreases rest
  {
    if rest == [] {
      assert path + rest == path;
    } else {
      var seg, tail := rest[0], rest[1..];
      assert rest == [seg] + tail;
      GetChild(v, seg, tail);
      assert path + rest == path + [seg] + tail;
      match seg
      case Key(k) =>
        var j := KeyIndex(v.fields, k);
        LeafListed(path + [seg], v.fields[j].val, tail);
        FieldLeavesFrom(path, v.fields, 0, j);
      case Index(i) =>
        LeafListed(path + [seg], v.items[i], tail);
        ItemLeavesFrom(path, v.items, 0, i);
    }
  }

  /** Two nodes whose values are not both maps or both lists are told apart by one record at their own path. */
  lemma KindChanged(base: Path, o: Value, m: Value, orphans: bool, p: Path)
    requires o != m && !SameKind(o, m)
    ensures Reported(base, o, m, orphans, DiffValues(base, o, m, orphans), p)
  {
    var d := DiffValues(base, o, m, orphans);
    assert d == if Blank(m) then ChangeSet([], [], [base]) else ChangeSet([], [Change(base, m)], []);
    if p == [] {
      assert base + p == base;
    } else {
      assert p == [p[0]] + p[1..];
      GetChild(o, p[0], p[1..]);
      GetChild(m, p[0], p[1..]);
      assert base <= base + p;
      if Blank(m) {
        assert base in d.deletes;
      } else {
        assert Change(base, m) in d.sets;
      }
    }
  }

  /** A key of two maps, seen from the maps. */
  lemma {:induction false} KeyReported(base: Path, ofs: seq<Field>, mfs: seq<Field>, orphans: bool, k: string, rest: Path)
    requires Obj(ofs) != Obj(mfs)
    ensures Reported(base, Obj(ofs), Obj(mfs), orphans, DiffValues(base, Obj(ofs), Obj(mfs), orphans), [Key(k)] + rest)
    decreases Obj(ofs), rest
  {
    var o, m := Obj(ofs), Obj(mfs);
    var d := DiffValues(base, o, m, orphans);
    var seg := Key(k);
    var p := [seg] + rest;
    assert d == Join(DiffFields(base, ofs, mfs, 0, orphans), ChangeSet(NewFields(base, ofs, mfs, 0, orphans), [], []));
    GetChild(o, seg, rest);
    GetChild(m, seg, rest);
    assert base + p == base + [seg] + rest;
    assert base + [seg] <= base + p;
    var i, j := KeyIndex(ofs, k), KeyIndex(mfs, k);
    if HasKey(ofs, k) && HasKey(mfs, k) {
      var sub := DiffValues(base + [seg], ofs[i].val, mfs[j].val, orphans);
      ChildReported(base + [seg], ofs[i].val, mfs[j].val, orphans, rest);
      FieldsFrom(base, ofs, mfs, 0, i, orphans);
      ReportedWithin(base + [seg], ofs[i].val, mfs[j].val, orphans, sub, d, rest);
      ReportedChild(base, seg, o, m, ofs[i].val, mfs[j].val, orphans, d, rest);
    } else if HasKey(ofs, k) {
      FieldsFrom(base, ofs, mfs, 0, i, orphans);
      assert base + [seg] in d.deletes;
    } else if HasKey(mfs, k) {
      NewFieldsFrom(base, ofs, mfs, 0, j, orphans);
      if !orphans {
        assert Change(base + [seg], mfs[j].val) in d.adds;
      } else if Get(m, p).Some? && IsLeaf(Get(m, p).value) {
        LeafListed(base + [seg], mfs[j].val, rest);
        assert Change(base + p, Get(m, p).value) in d.adds;
      }
    }
  }

  /** A slot of two lists, seen from the lists. */
  lemma {:induction false} SlotReported(base: Path, ois: seq<Value>, mis: seq<Value>, orphans: bool, i: nat, rest: Path)
    requires List(ois) != List(mis)
    ensures Reported(base, List(ois), List(mis), orphans, DiffValues(base, List(ois), List(mis), orphans), [Index(i)] + rest)
    decreases List(ois), rest
  {
    var o, m := List(ois), List(mis);
    var d := DiffValues(base, o, m, orphans);
    var seg := Index(i);
    var p := [seg] + rest;
    assert d == DiffItems(base, ois, mis, 0, orphans);
    GetChild(o, seg, rest);
    GetChild(m, seg, rest);
    assert base + p == base + [seg] + rest;
    assert base + [seg] <= base + p;
    ItemsFrom(base, ois, mis, 0, i, orphans);
    if i < |ois| && i < |mis| {
      var sub := DiffValues(base + [seg], ois[i], mis[i], orphans);
      ChildReported(base + [seg], ois[i], mis[i], orphans, rest);
      ReportedWithin(base + [seg], ois[i], mis[i], orphans, sub, d, rest);
      ReportedChild(base, seg, o, m, ois[i], mis[i], orphans, d, rest);
    } else if i < |ois| {
      assert base + [seg] in d.deletes;
    } else if i < |mis| {
      if !orphans {
        assert Change(base + [seg], mis[i]) in d.adds;
      } else if Get(m, p).Some? && IsLeaf(Get(m, p).value) {
        LeafListed(base + [seg], mis[i], rest);
        assert Change(base + p, Get(m, p).value) in d.adds;
      }
    }
  }

  /** Completeness below one node: every difference at `p` below `base` is reported. */
  lemma {:induction false} ChildReported(base: Path, o: Value, m: Value, orphans: bool, p: Path)
    ensures Reported(base, o, m, orphans, DiffValues(base, o, m, orphans), p)
    decreases o, p
  {
    if o == m {
    } else if !SameKind(o, m) {
      KindChanged(base, o, m, orphans, p);
    } else if p == [] {
    } else {
      assert p == [p[0]] + p[1..];
      match p[0]
      case Key(k) =>
        if o.Obj? {
          KeyReported(base, o.fields, m.fields, orphans, k, p[1..]);
        } else {
          GetChild(o, p[0], p[1..]);
          GetChild(m, p[0], p[1..]);
        }
      case Index(i) =>
        if o.List? {
          SlotReported(base, o.items, m.items, orphans, i, p[1..]);
        } else {
          GetChild(o, p[0], p[1..]);
          GetChild(m, p[0], p[1..]);
        }
    }
  }

  /** `diff` reports every difference between the two documents, at every path. */
  lemma DiffComplete(original: seq<Field>, modified: seq<Field>, orphans: bool)
    ensures forall p :: Reported([], Obj(original), Obj(modified), orphans, Diff(original, modified, orphans), p)
  {
    forall p ensures Reported([], Obj(original), Obj(modified), orphans, Diff(original, modified, orphans), p) {
      ChildReported([], Obj(original), Obj(modified), orphans, p);
    }
  }
}

=== FILE: diff_equivalence.dfy ===
/**
 * `diff` reports nothing exactly when the two documents are deeply equal in the sense
 * of a structural comparison that ignores the order of map keys.
 */
module DiffEquivalence {
  import opened Wrappers
  import opened Json
  import opened Differ
  import DiffSoundness

  /** Deep equality of documents: maps with the same keys and equivalent values, lists slot by slot, scalars by value. */
  ghost predicate Equiv(a: Value, b: Value)
    decreases a
  {
    match a
    case Obj(afs) =>
      && b.Obj?
      && (forall j :: 0 <= j < |b.fields| ==> HasKey(afs, b.fields[j].key))
      && (forall i :: 0 <= i < |afs| ==>
            HasKey(b.fields, afs[i].key) && Equiv(afs[i].val, b.fields[KeyIndex(b.fields, afs[i].key)].val))
    case List(ais) =>
      && b.List?
      && |ais| == |b.items|
      && (forall i :: 0 <= i < |ais| ==> Equiv(ais[i], b.items[i]))
    case _ => a == b
  }

  lemma {:induction false} EquivRefl(v: Value)
    requires WellFormed(v)
    ensures Equiv(v, v)
    decreases v
  {
    match v
    case Obj(fields) =>
      forall i | 0 <= i < |fields|
        ensures HasKey(fields, fields[i].key) && Equiv(fields[i].val, fields[KeyIndex(fields, fields[i].key)].val)
      {
        KeyIndexOfUnique(fields, i);
        EquivRefl(fields[i].val);
      }
      forall j | 0 <= j < |fields|
        ensures HasKey(fields, fields[j].key)
      {
        HasOwnKey(fields, j);
      }
    case List(items) =>
      forall i | 0 <= i < |items|
        ensures Equiv(items[i], items[i])
      {
        EquivRefl(items[i]);
      }
    case _ =>
  }

  /** No change at all exactly when the documents are deeply equal. */
  lemma {:induction false} DiffValuesEmpty(base: Path, o: Value, m: Value, orphans: bool)
    requires WellFormed(o) && WellFormed(m)
    ensures IsEmpty(DiffValues(base, o, m, orphans)) <==> Equiv(o, m)
    decreases o, 1, 0
  {
    if o == m {
      EquivRefl(o);
    } else if o.Obj? && m.Obj? {
      MapsEmpty(base, o.fields, m.fields, orphans);
    } else if o.List? && m.List? {
      ListsEmpty(base, o.items, m.items, orphans);
    }
  }

  /** Two maps are equivalent when each key of one is a key of the other, with equivalent values. */
  lemma EquivMaps(ofs: seq<Field>, mfs: seq<Field>)
    ensures Equiv(Obj(ofs), Obj(mfs)) <==>
      && (forall j :: 0 <= j < |mfs| ==> HasKey(ofs, mfs[j].key))
      && (forall i :: 0 <= i < |ofs| ==> HasKey(mfs, ofs[i].key) && Equiv(ofs[i].val, mfs[KeyIndex(mfs, ofs[i].key)].val))
  {
  }

  lemma JoinEmpty(a: ChangeSet, adds: seq<Change>)
    ensures IsEmpty(Join(a, ChangeSet(adds, [], []))) <==> IsEmpty(a) && adds == []
  {
    if IsEmpty(Join(a, ChangeSet(adds, [], []))) {
      assert |a.adds + adds| == 0;
    }
  }

  lemma JoinBothEmpty(a: ChangeSet, b: ChangeSet)
    ensures IsEmpty(Join(a, b)) <==> IsEmpty(a) && IsEmpty(b)
  {
    if IsEmpty(Join(a, b)) {
      assert |a.adds + b.adds| == 0 && |a.sets + b.sets| == 0 && |a.deletes + b.deletes| == 0;
    }
  }

  lemma {:induction false} MapsEmpty(base: Path, ofs: seq<Field>, mfs: seq<Field>, orphans: bool)
    requires WellFormed(Obj(ofs)) && WellFormed(Obj(mfs)) && ofs != mfs
    ensures IsEmpty(DiffValues(base, Obj(ofs), Obj(mfs), orphans)) <==> Equiv(Obj(ofs), Obj(mfs))
    decreases Obj(ofs), 0, |ofs| + 1
  {
    var df := DiffFields(base, ofs, mfs, 0, orphans);
    var nf := NewFields(base, ofs, mfs, 0, orphans);
    assert DiffValues(base, Obj(ofs), Obj(mfs), orphans) == Join(df, ChangeSet(nf, [], []));
    JoinEmpty(df, nf);
    EquivMaps(ofs, mfs);
    DiffFieldsEmpty(base, ofs, mfs, 0, orphans);
    NewFieldsEmpty(base, ofs, mfs, 0, orphans);
  }

  lemma {:induction false} ListsEmpty(base: Path, ois: seq<Value>, mis: seq<Value>, orphans: bool)
    requires WellFormed(List(ois)) && WellFormed(List(mis)) && ois != mis
    ensures IsEmpty(DiffValues(base, List(ois), List(mis), orphans)) <==> Equiv(List(ois), List(mis))
    decreases List(ois), 0, |ois| + |mis| + 1
  {
    DiffItemsEmpty(base, ois, mis, 0, orphans);
  }

  lemma {:induction false} DiffFieldsEmpty(base: Path, ofs: seq<Field>, mfs: seq<Field>, i: nat, orphans: bool)
    requires WellFormed(Obj(ofs)) && WellFormed(Obj(mfs)) && i <= |ofs|
    ensures IsEmpty(DiffFields(base, ofs, mfs, i, orphans)) <==>
      forall j :: i <= j < |ofs| ==>
        HasKey(mfs, ofs[j].key) && Equiv(ofs[j].val, mfs[KeyIndex(mfs, ofs[j].key)].val)
    decreases Obj(ofs), 0, |ofs| - i
  {
    if i < |ofs| {
      DiffFieldsEmpty(base, ofs, mfs, i + 1, orphans);
      var k := ofs[i].key;
      if HasKey(mfs, k) {
        DiffValuesEmpty(base + [Key(k)], ofs[i].val, mfs[KeyIndex(mfs, k)].val, orphans);
      }
    }
  }

  lemma {:induction false} NewFieldsEmpty(base: Path, ofs: seq<Field>, mfs: seq<Field>, i: nat, orphans: bool)
    requires WellFormed(Obj(mfs)) && i <= |mfs|
    ensures NewFields(base, ofs, mfs, i, orphans) == [] <==> forall j :: i <= j < |mfs| ==> HasKey(ofs, mfs[j].key)
    decreases |mfs| - i
  {
    if i < |mfs| {
      NewFieldsEmpty(base, ofs, mfs, i + 1, orphans);
      DiffSoundness.LeafChangesSound(base + [Key(mfs[i].key)], mfs[i].val);
    }
  }

  lemma {:induction false} DiffItemsEmpty(base: Path, ois: seq<Value>, mis: seq<Value>, i: nat, orphans: bool)
    requires WellFormed(List(ois)) && WellFormed(List(mis))
    ensures IsEmpty(DiffItems(base, ois, mis, i, orphans)) <==>
      && (i < |ois| || i < |mis| ==> |ois| == |mis|)
      && (forall j :: i <= j < |ois| && j < |mis| ==> Equiv(ois[j], mis[j]))
    decreases List(ois), 0, |ois| + |mis| - i
  {
    if i < |ois| || i < |mis| {
      var rest := DiffItems(base, ois, mis, i + 1, orphans);
      DiffItemsEmpty(base, ois, mis, i + 1, orphans);
      if i < |ois| && i < |mis| {
        JoinBothEmpty(DiffValues(base + [Index(i)], ois[i], mis[i], orphans), rest);
        DiffValuesEmpty(base + [Index(i)], ois[i], mis[i], orphans);
      } else if i < |ois| {
        JoinBothEmpty(ChangeSet([], [], [base + [Index(i)]]), rest);
      } else {
        JoinBothEmpty(ChangeSet(Added(base + [Index(i)], mis[i], orphans), [], []), rest);
        DiffSoundness.LeafChangesSound(base + [Index(i)], mis[i]);
      }
    }
  }

  /** `diff` of two well-formed documents is empty exactly when they are deeply equal. */
  lemma DiffEmptyIff(original: seq<Field>, modified: seq<Field>, orphans: bool)
    requires WellFormed(Obj(original)) && WellFormed(Obj(modified))
    ensures IsEmpty(Diff(original, modified, orphans)) <==> Equiv(Obj(original), Obj(modified))
  {
    DiffValuesEmpty([], Obj(original), Obj(modified), orphans);
  }
}

=== FILE: diff_locality.dfy ===
/**
 * An edit at one path shows up in the diff at that path and nowhere else; from this
 * follow the single-edit round trips: writing a new scalar yields exactly one SET,
 * clearing a value exactly one DELETE, removing a key exactly one DELETE and adding
 * a key exactly the ADD records of the new subtree.
 */
module DiffLocality {
  import opened Wrappers
  import opened Json
  import opened Differ

  lemma JoinUnits(d: ChangeSet)
    ensures Join(NoChanges, d) == d && Join(d, NoChanges) == d
  {
    assert [] + d.adds == d.adds && d.adds + [] == d.adds;
    assert [] + d.sets == d.sets && d.sets + [] == d.sets;
    assert [] + d.deletes == d.deletes && d.deletes + [] == d.deletes;
  }

  /** No key of `mfs` from position `i` on is new to `ofs`, so there is nothing to add. */
  lemma {:induction false} NoNewFields(base: Path, ofs: seq<Field>, mfs: seq<Field>, i: nat, orphans: bool)
    requires i <= |mfs|
    requires forall j :: i <= j < |mfs| ==> HasKey(ofs, mfs[j].key)
    ensures NewFields(base, ofs, mfs, i, orphans) == []
    decreases |mfs| - i
  {
    if i < |mfs| {
      NoNewFields(base, ofs, mfs, i + 1, orphans);
    }
  }

  /** Walking a map whose entry `j` alone was replaced finds the change in entry `j` only. */
  lemma {:induction false} FieldsLocal(base: Path, fields: seq<Field>, j: nat, sub: Value, i: nat, orphans: bool)
    requires UniqueKeys(fields) && j < |fields| && i <= |fields|
    ensures DiffFields(base, fields, fields[j := Field(fields[j].key, sub)], i, orphans)
         == if i <= j then DiffValues(base + [Key(fields[j].key)], fields[j].val, sub, orphans) else NoChanges
    decreases |fields| - i
  {
    if i < |fields| {
      FieldsLocal(base, fields, j, sub, i + 1, orphans);
      FieldsLocalHead(base, fields, j, sub, i, orphans);
      JoinUnits(DiffValues(base + [Key(fields[j].key)], fields[j].val, sub, orphans));
      JoinUnits(DiffFields(base, fields, fields[j := Field(fields[j].key, sub)], i + 1, orphans));
    }
  }

  /** Entry `i` of the map whose entry `j` alone was replaced: only entry `j` differs. */
  lemma FieldsLocalHead(base: Path, fields: seq<Field>, j: nat, sub: Value, i: nat, orphans: bool)
    requires UniqueKeys(fields) && j < |fields| && i < |fields|
    ensures DiffFields(base, fields, fields[j := Field(fields[j].key, sub)], i, orphans)
         == Join(if i == j then DiffValues(base + [Key(fields[j].key)], fields[j].val, sub, orphans) else NoChanges,
                 DiffFields(base, fields, fields[j := Field(fields[j].key, sub)], i + 1, orphans))
  {
    var fs' := fields[j := Field(fields[j].key, sub)];
    assert UniqueKeys(fs');
    KeyIndexOfUnique(fs', i);
  }

  /** Walking a list whose slot `j` alone was replaced finds the change in slot `j` only. */
  lemma {:induction false} ItemsLocal(base: Path, items: seq<Value>, j: nat, sub: Value, i: nat, orphans: bool)
    requires j < |items|
    ensures DiffItems(base, items, items[j := sub], i, orphans)
         == if i <= j then DiffValues(base + [Index(j)], items[j], sub, orphans) else NoChanges
    decreases |items| - i
  {
    if i < |items| {
      ItemsLocal(base, items, j, sub, i + 1, orphans);
      var here := DiffValues(base + [Index(i)], items[i], items[j := sub][i], orphans);
      JoinUnits(here);
      JoinUnits(DiffItems(base, items, items[j := sub], i + 1, orphans));
    }
  }

  /** Replacing the value of entry `j` of a map changes the diff of the map only in that entry. */
  lemma FieldStep(base: Path, fields: seq<Field>, j: nat, sub: Value, orphans: bool)
    requires UniqueKeys(fields) && j < |fields|
    ensures DiffValues(base, Obj(fields), Obj(fields[j := Field(fields[j].key, sub)]), orphans)
         == DiffValues(base + [Key(fields[j].key)], fields[j].val, sub, orphans)
  {
    var fs' := fields[j := Field(fields[j].key, sub)];
    if Obj(fields) == Obj(fs') {
      assert fields[j].val == fs'[j].val;
    } else {
      FieldsLocal(base, fields, j, sub, 0, orphans);
      forall i | 0 <= i < |fs'|
        ensures HasKey(fields, fs'[i].key)
      {
        HasOwnKey(fields, i);
      }
      NoNewFields(base, fields, fs', 0, orphans);
      JoinUnits(DiffValues(base + [Key(fields[j].key)], fields[j].val, sub, orphans));
    }
  }

  /** Replacing slot `j` of a list changes the diff of the list only in that slot. */
  lemma ItemStep(base: Path, items: seq<Value>, j: nat, sub: Value, orphans: bool)
    requires j < |items|
    ensures DiffValues(base, List(items), List(items[j := sub]), orphans)
         == DiffValues(base + [Index(j)], items[j], sub, orphans)
  {
    if List(items) == List(items[j := sub]) {
      assert items[j] == items[j := sub][j];
    } else {
      ItemsLocal(base, items, j, sub, 0, orphans);
    }
  }

  /**
   * Locality: replacing the existing node at `p` by `x` changes the diff exactly as
   * comparing that node with `x` at `p` would.
   */
  lemma {:induction false} DiffLocal(base: Path, o: Value, p: Path, x: Value, orphans: bool)
    requires WellFormed(o) && Get(o, p).Some?
    ensures DiffValues(base, o, SetAt(o, p, x), orphans) == DiffValues(base + p, Get(o, p).value, x, orphans)
    decreases p
  {
    if p == [] {
      assert base + p == base;
    } else {
      match p[0]
      case Key(k) =>
        var j := KeyIndex(o.fields, k);
        var sub := SetAt(o.fields[j].val, p[1..], x);
        DiffLocal(base + [Key(k)], o.fields[j].val, p[1..], x, orphans);
        assert base + [Key(k)] + p[1..] == base + p;
        assert SetAt(o, p, x) == Obj(o.fields[j := Field(k, sub)]);
        FieldStep(base, o.fields, j, sub, orphans);
      case Index(i) =>
        var sub := SetAt(o.items[i], p[1..], x);
        DiffLocal(base + [Index(i)], o.items[i], p[1..], x, orphans);
        assert base + [Index(i)] + p[1..] == base + p;
        assert SetAt(o, p, x) == List(o.items[i := sub]);
        ItemStep(base, o.items, i, sub, orphans);
    }
  }

  /** Writing a non-blank value over a node, where old and new are not both maps or both lists, yields exactly one SET record at that node. */
  lemma DiffOfSet(doc: seq<Field>, p: Path, x: Value, orphans: bool)
    requires WellFormed(Obj(doc)) && p != [] && Get(Obj(doc), p).Some?
    requires Get(Obj(doc), p).value != x && !SameKind(Get(Obj(doc), p).value, x) && !Blank(x)
    ensures SetAt(Obj(doc), p, x).Obj?
    ensures Diff(doc, SetAt(Obj(doc), p, x).fields, orphans) == ChangeSet([], [Change(p, x)], [])
  {
    DiffLocal([], Obj(doc), p, x, orphans);
    assert [] + p == p;
  }

  /** Blanking a node (null or the empty string) yields exactly one DELETE record at that node. */
  lemma DiffOfClear(doc: seq<Field>, p: Path, x: Value, orphans: bool)
    requires WellFormed(Obj(doc)) && p != [] && Get(Obj(doc), p).Some?
    requires Blank(x) && Get(Obj(doc), p).value != x
    ensures SetAt(Obj(doc), p, x).Obj?
    ensures Diff(doc, SetAt(Obj(doc), p, x).fields, orphans) == ChangeSet([], [], [p])
  {
    DiffLocal([], Obj(doc), p, x, orphans);
    assert [] + p == p;
  }

  /** A key other than `k` has the same value in the map without `k`, so it contributes nothing. */
  lemma FieldsWithoutKeyOther(base: Path, fields: seq<Field>, k: string, i: nat, orphans: bool)
    requires UniqueKeys(fields) && i < |fields| && fields[i].key != k
    ensures DiffFields(base, fields, RemoveKey(fields, k), i, orphans)
         == Join(NoChanges, DiffFields(base, fields, RemoveKey(fields, k), i + 1, orphans))
  {
    var rfs := RemoveKey(fields, k);
    var key := fields[i].key;
    KeyIndexOfUnique(fields, i);
    LookupRemoveKey(fields, k, key);
    assert Lookup(rfs, key) == Some(fields[i].val);
    assert DiffValues(base + [Key(key)], fields[i].val, rfs[KeyIndex(rfs, key)].val, orphans) == NoChanges;
  }

  /** The key `k` itself is missing from the map without `k`, so it is deleted. */
  lemma FieldsWithoutKeyAt(base: Path, fields: seq<Field>, k: string, i: nat, orphans: bool)
    requires i < |fields| && fields[i].key == k
    ensures DiffFields(base, fields, RemoveKey(fields, k), i, orphans)
         == Join(ChangeSet([], [], [base + [Key(k)]]), DiffFields(base, fields, RemoveKey(fields, k), i + 1, orphans))
  {
    assert !HasKey(RemoveKey(fields, k), k);
  }

  /** Past key `k`, walking a map against the same map without `k` meets nothing. */
  lemma {:induction false} FieldsAfterKey(base: Path, fields: seq<Field>, k: string, i: nat, orphans: bool)
    requires UniqueKeys(fields) && HasKey(fields, k) && KeyIndex(fields, k) < i <= |fields|
    ensures DiffFields(base, fields, RemoveKey(fields, k), i, orphans) == NoChanges
    decreases |fields| - i
  {
    if i < |fields| {
      FieldsAfterKey(base, fields, k, i + 1, orphans);
      KeyIndexOfUnique(fields, i);
      FieldsWithoutKeyOther(base, fields, k, i, orphans);
      JoinUnits(NoChanges);
    }
  }

  /** Up to key `k`, walking a map against the same map without `k` meets only the deletion of `k`. */
  lemma {:induction false} FieldsWithoutKey(base: Path, fields: seq<Field>, k: string, i: nat, orphans: bool)
    requires UniqueKeys(fields) && HasKey(fields, k) && i <= KeyIndex(fields, k)
    ensures DiffFields(base, fields, RemoveKey(fields, k), i, orphans) == ChangeSet([], [], [base + [Key(k)]])
    decreases KeyIndex(fields, k) - i
  {
    var gone := ChangeSet([], [], [base + [Key(k)]]);
    if i < KeyIndex(fields, k) {
      FieldsWithoutKey(base, fields, k, i + 1, orphans);
      FieldsWithoutKeyOther(base, fields, k, i, orphans);
      JoinUnits(gone);
    } else {
      FieldsAfterKey(base, fields, k, i + 1, orphans);
      FieldsWithoutKeyAt(base, fields, k, i, orphans);
      JoinUnits(gone);
    }
  }

  /** Every key of the map without `k` is a key of the map. */
  lemma RemoveKeyKeys(fs: seq<Field>, k: string)
    ensures forall j :: 0 <= j < |RemoveKey(fs, k)| ==> HasKey(fs, RemoveKey(fs, k)[j].key)
  {
    var rfs := RemoveKey(fs, k);
    forall j | 0 <= j < |rfs|
      ensures HasKey(fs, rfs[j].key)
    {
      assert rfs[j] in fs;
      var i :| 0 <= i < |fs| && fs[i] == rfs[j];
      HasOwnKey(fs, i);
    }
  }

  /** Comparing a map with itself without key `k` meets only the deletion of `k`. */
  lemma MapWithoutKey(base: Path, fs: seq<Field>, k: string, orphans: bool)
    requires UniqueKeys(fs) && HasKey(fs, k)
    ensures DiffValues(base, Obj(fs), Obj(RemoveKey(fs, k)), orphans) == ChangeSet([], [], [base + [Key(k)]])
  {
    var rfs := RemoveKey(fs, k);
    assert !HasKey(rfs, k);
    FieldsWithoutKey(base, fs, k, 0, orphans);
    RemoveKeyKeys(fs, k);
    NoNewFields(base, fs, rfs, 0, orphans);
    JoinUnits(ChangeSet([], [], [base + [Key(k)]]));
  }

  /** Removing one key of a map yields exactly one DELETE record, at that key. */
  lemma DiffOfRemoveKey(doc: seq<Field>, p: Path, k: string, orphans: bool)
    requires WellFormed(Obj(doc)) && Get(Obj(doc), p).Some? && Get(Obj(doc), p).value.Obj?
    requires HasKey(Get(Obj(doc), p).value.fields, k)
    ensures SetAt(Obj(doc), p, Obj(RemoveKey(Get(Obj(doc), p).value.fields, k))).Obj?
    ensures Diff(doc, SetAt(Obj(doc), p, Obj(RemoveKey(Get(Obj(doc), p).value.fields, k))).fields, orphans)
         == ChangeSet([], [], [p + [Key(k)]])
  {
    var fs := Get(Obj(doc), p).value.fields;
    DiffLocal([], Obj(doc), p, Obj(RemoveKey(fs, k)), orphans);
    assert [] + p == p;
    WellFormedGet(Obj(doc), p);
    MapWithoutKey(p, fs, k, orphans);
  }

  /** Walking a map against the same map with one new key appended meets only that key. */
  lemma {:induction false} NewFieldsOfAppend(base: Path, fields: seq<Field>, k: string, v: Value, i: nat, orphans: bool)
    requires !HasKey(fields, k) && i <= |fields|
    ensures NewFields(base, fields, fields + [Field(k, v)], i, orphans) == Added(base + [Key(k)], v, orphans)
    decreases |fields| - i
  {
    var fs' := fields + [Field(k, v)];
    if i < |fields| {
      NewFieldsOfAppend(base, fields, k, v, i + 1, orphans);
      HasOwnKey(fields, i);
    } else {
      assert NewFields(base, fields, fs', i + 1, orphans) == [];
      assert Added(base + [Key(k)], v, orphans) + [] == Added(base + [Key(k)], v, orphans);
    }
  }

  /** The original map's keys all keep their values when a new key is appended. */
  lemma {:induction false} FieldsOfAppend(base: Path, fields: seq<Field>, k: string, v: Value, i: nat, orphans: bool)
    requires UniqueKeys(fields) && !HasKey(fields, k) && i <= |fields|
    ensures DiffFields(base, fields, fields + [Field(k, v)], i, orphans) == NoChanges
    decreases |fields| - i
  {
    var fs' := fields + [Field(k, v)];
    if i < |fields| {
      FieldsOfAppend(base, fields, k, v, i + 1, orphans);
      KeyIndexIs(fs', fields[i].key, i);
    }
  }

  /**
   * Adding a key to an existing map yields exactly the ADD records of the new subtree:
   * the whole subtree at the new key, or with orphans one record per leaf.
   */
  lemma DiffOfAddKey(doc: seq<Field>, p: Path, k: string, v: Value, orphans: bool)
    requires WellFormed(Obj(doc)) && Get(Obj(doc), p).Some? && Get(Obj(doc), p).value.Obj?
    requires !HasKey(Get(Obj(doc), p).value.fields, k)
    ensures SetAt(Obj(doc), p + [Key(k)], v).Obj?
    ensures Diff(doc, SetAt(Obj(doc), p + [Key(k)], v).fields, orphans)
         == ChangeSet(Added(p + [Key(k)], v, orphans), [], [])
  {
    var fs := Get(Obj(doc), p).value.fields;
    SetAtAppend(Obj(doc), p, [Key(k)], v);
    assert SetAt(Obj(fs), [Key(k)], v) == Obj(fs + [Field(k, v)]);
    DiffLocal([], Obj(doc), p, Obj(fs + [Field(k, v)]), orphans);
    assert [] + p == p;
    WellFormedGet(Obj(doc), p);
    FieldsOfAppend(p, fs, k, v, 0, orphans);
    NewFieldsOfAppend(p, fs, k, v, 0, orphans);
    JoinUnits(ChangeSet(Added(p + [Key(k)], v, orphans), [], []));
  }
}

=== FILE: diff_sound.dfy ===
/**
 * What each record `diff` emits means about the two documents: an ADD record names
 * a node only the modified document has, a SET record a node whose old and new values
 * differ and are not both maps or both lists, a DELETE record a node that is gone or
 * blanked. Paths are
 * read relative to the node the walk started at.
 */
module DiffSoundness {
  import opened Wrappers
  import opened Json
  import opened Differ

  /** The added node is new, carries the modified value, and is a leaf (orphans) or hangs off a node the original had. */
  ghost predicate AddOk(base: Path, o: Value, m: Value, orphans: bool, c: Change) {
    && base < c.path
    && var rel := c.path[|base|..];
    && Get(o, rel) == None
    && Get(m, rel) == Some(c.value)
    && if orphans then IsLeaf(c.value) else Get(o, rel[..|rel| - 1]).Some?
  }

  /** The set node exists in both documents; its new value is not blank, and old and new are not both maps or both lists. */
  ghost predicate SetOk(base: Path, o: Value, m: Value, c: Change) {
    && base <= c.path
    && var rel := c.path[|base|..];
    && Get(m, rel) == Some(c.value)
    && Get(o, rel).Some?
    && Get(o, rel).value != c.value
    && !SameKind(Get(o, rel).value, c.value)
    && !Blank(c.value)
  }

  /** The deleted node exists in the original, and the modified document lacks it or holds a different blank there. */
  ghost predicate DeleteOk(base: Path, o: Value, m: Value, p: Path) {
    && base <= p
    && var rel := p[|base|..];
    && Get(o, rel).Some?
    && (Get(m, rel) == None || (Blank(Get(m, rel).value) && Get(m, rel) != Get(o, rel)))
  }

  ghost predicate Sound(base: Path, o: Value, m: Value, orphans: bool, d: ChangeSet) {
    && (forall c :: c in d.adds ==> AddOk(base, o, m, orphans, c))
    && (forall c :: c in d.sets ==> SetOk(base, o, m, c))
    && (forall p :: p in d.deletes ==> DeleteOk(base, o, m, p))
  }

  /** Every record LeafChanges emits is a leaf of `v`, found at its path below `base`. */
  lemma {:induction false} LeafChangesSound(base: Path, v: Value)
    requires WellFormed(v)
    ensures LeafChanges(base, v) != []
    ensures forall c :: c in LeafChanges(base, v) ==>
      base <= c.path && Get(v, c.path[|base|..]) == Some(c.value) && IsLeaf(c.value)
    decreases v, 1, 0
  {
    match v
    case Obj(fields) =>
      if fields != [] {
        FieldLeavesSound(base, fields, 0);
      }
    case List(items) =>
      if items != [] {
        ItemLeavesSound(base, items, 0);
      }
    case _ =>
  }

  /** Reading below a path prefix: `p` relative to `base` is `seg` followed by `p` relative to `base + [seg]`. */
  lemma Descend(base: Path, seg: Segment, p: Path)
    requires base + [seg] <= p
    ensures base <= p && p[|base|..] == [seg] + p[|base| + 1..]
  {
    assert p[|base|] == (base + [seg])[|base|];
  }

  lemma {:induction false} FieldLeavesSound(base: Path, fields: seq<Field>, i: nat)
    requires WellFormed(Obj(fields)) && i <= |fields|
    ensures i < |fields| ==> FieldLeaves(base, fields, i) != []
    ensures forall c :: c in FieldLeaves(base, fields, i) ==>
      base <= c.path && Get(Obj(fields), c.path[|base|..]) == Some(c.value) && IsLeaf(c.value)
    decreases Obj(fields), 0, |fields| - i
  {
    if i < |fields| {
      var seg := Key(fields[i].key);
      LeafChangesSound(base + [seg], fields[i].val);
      FieldLeavesSound(base, fields, i + 1);
      KeyIndexOfUnique(fields, i);
      forall c | c in LeafChanges(base + [seg], fields[i].val)
        ensures base <= c.path && Get(Obj(fields), c.path[|base|..]) == Some(c.value)
      {
        Descend(base, seg, c.path);
        GetCons(Obj(fields), seg, c.path[|base| + 1..]);
      }
    }
  }

  lemma {:induction false} ItemLeavesSound(base: Path, items: seq<Value>, i: nat)
    requires WellFormed(List(items)) && i <= |items|
    ensures i < |items| ==> ItemLeaves(base, items, i) != []
    ensures forall c :: c in ItemLeaves(base, items, i) ==>
      base <= c.path && Get(List(items), c.path[|base|..]) == Some(c.value) && IsLeaf(c.value)
    decreases List(items), 0, |items| - i
  {
    if i < |items| {
      var seg := Index(i);
      LeafChangesSound(base + [seg], items[i]);
      ItemLeavesSound(base, items, i + 1);
      forall c | c in LeafChanges(base + [seg], items[i])
        ensures base <= c.path && Get(List(items), c.path[|base|..]) == Some(c.value)
      {
        Descend(base, seg, c.path);
        GetCons(List(items), seg, c.path[|base| + 1..]);
      }
    }
  }

  /** Records about the children at `seg` are records about their parents too. */
  lemma SoundLift(base: Path, seg: Segment, o: Value, m: Value, o': Value, m': Value, orphans: bool, d: ChangeSet)
    requires Get(o, [seg]) == Some(o') && Get(m, [seg]) == Some(m')
    requires Sound(base + [seg], o', m', orphans, d)
    ensures Sound(base, o, m, orphans, d)
  {
    forall c | c in d.adds
      ensures AddOk(base, o, m, orphans, c)
    {
      Descend(base, seg, c.path);
      var rel' := c.path[|base| + 1..];
      GetCons(o, seg, rel');
      GetCons(m, seg, rel');
      if !orphans {
        assert ([seg] + rel')[..|rel'|] == [seg] + rel'[..|rel'| - 1];
        GetCons(o, seg, rel'[..|rel'| - 1]);
      }
    }
    forall c | c in d.sets
      ensures SetOk(base, o, m, c)
    {
      Descend(base, seg, c.path);
      GetCons(o, seg, c.path[|base| + 1..]);
      GetCons(m, seg, c.path[|base| + 1..]);
    }
    forall p | p in d.deletes
      ensures DeleteOk(base, o, m, p)
    {
      Descend(base, seg, p);
      GetCons(o, seg, p[|base| + 1..]);
      GetCons(m, seg, p[|base| + 1..]);
    }
  }

  /** A subtree that only the modified document has, at child `seg`, is added soundly. */
  lemma AddedSound(base: Path, seg: Segment, o: Value, m: Value, v: Value, orphans: bool)
    requires Get(o, [seg]) == None && Get(m, [seg]) == Some(v) && WellFormed(v)
    ensures forall c :: c in Added(base + [seg], v, orphans) ==> AddOk(base, o, m, orphans, c)
  {
    if orphans {
      LeafChangesSound(base + [seg], v);
      forall c | c in LeafChanges(base + [seg], v)
        ensures AddOk(base, o, m, orphans, c)
      {
        Descend(base, seg, c.path);
        GetCons(o, seg, c.path[|base| + 1..]);
        GetCons(m, seg, c.path[|base| + 1..]);
      }
    } else {
      var c := Change(base + [seg], v);
      assert c.path[|base|..] == [seg];
    }
  }

  /** Soundness of the differencer: every record it emits is justified by the two documents. */
  lemma {:induction false} DiffValuesSound(base: Path, o: Value, m: Value, orphans: bool)
    requires WellFormed(o) && WellFormed(m)
    ensures Sound(base, o, m, orphans, DiffValues(base, o, m, orphans))
    decreases o, 1, 0
  {
    if o == m {
    } else if o.Obj? && m.Obj? {
      DiffFieldsSound(base, o.fields, m.fields, 0, orphans);
      NewFieldsSound(base, o.fields, m.fields, 0, orphans);
    } else if o.List? && m.List? {
      DiffItemsSound(base, o.items, m.items, 0, orphans);
    } else if Blank(m) {
      assert [base][0][|base|..] == [];
    } else {
      assert [Change(base, m)][0].path[|base|..] == [];
    }
  }

  lemma {:induction false} DiffFieldsSound(base: Path, ofs: seq<Field>, mfs: seq<Field>, i: nat, orphans: bool)
    requires WellFormed(Obj(ofs)) && WellFormed(Obj(mfs)) && i <= |ofs|
    ensures Sound(base, Obj(ofs), Obj(mfs), orphans, DiffFields(base, ofs, mfs, i, orphans))
    decreases Obj(ofs), 0, |ofs| - i
  {
    if i < |ofs| {
      var k := ofs[i].key;
      var seg := Key(k);
      KeyIndexOfUnique(ofs, i);
      DiffFieldsSound(base, ofs, mfs, i + 1, orphans);
      if HasKey(mfs, k) {
        var j := KeyIndex(mfs, k);
        DiffValuesSound(base + [seg], ofs[i].val, mfs[j].val, orphans);
        SoundLift(base, seg, Obj(ofs), Obj(mfs), ofs[i].val, mfs[j].val, orphans,
          DiffValues(base + [seg], ofs[i].val, mfs[j].val, orphans));
      } else {
        assert Get(Obj(mfs), [seg]) == None;
        GoneSound(base, seg, Obj(ofs), Obj(mfs), orphans);
      }
    }
  }

  lemma {:induction false} NewFieldsSound(base: Path, ofs: seq<Field>, mfs: seq<Field>, i: nat, orphans: bool)
    requires WellFormed(Obj(mfs)) && i <= |mfs|
    ensures forall c :: c in NewFields(base, ofs, mfs, i, orphans) ==> AddOk(base, Obj(ofs), Obj(mfs), orphans, c)
    decreases |mfs| - i
  {
    if i < |mfs| {
      NewFieldsSound(base, ofs, mfs, i + 1, orphans);
      if !HasKey(ofs, mfs[i].key) {
        KeyIndexOfUnique(mfs, i);
        AddedSound(base, Key(mfs[i].key), Obj(ofs), Obj(mfs), mfs[i].val, orphans);
      }
    }
  }

  /** Records justified separately stay justified together. */
  lemma JoinSound(base: Path, o: Value, m: Value, orphans: bool, a: ChangeSet, b: ChangeSet)
    requires Sound(base, o, m, orphans, a) && Sound(base, o, m, orphans, b)
    ensures Sound(base, o, m, orphans, Join(a, b))
  {
  }

  /** A child `seg` that the original has and the modified document lacks is deleted soundly. */
  lemma GoneSound(base: Path, seg: Segment, o: Value, m: Value, orphans: bool)
    requires Get(o, [seg]).Some? && Get(m, [seg]) == None
    ensures Sound(base, o, m, orphans, ChangeSet([], [], [base + [seg]]))
  {
    var p := base + [seg];
    assert p[|base|..] == [seg];
    assert DeleteOk(base, o, m, p);
  }

  lemma {:induction false} DiffItemsSound(base: Path, ois: seq<Value>, mis: seq<Value>, i: nat, orphans: bool)
    requires WellFormed(List(ois)) && WellFormed(List(mis))
    ensures Sound(base, List(ois), List(mis), orphans, DiffItems(base, ois, mis, i, orphans))
    decreases List(ois), 0, |ois| + |mis| - i
  {
    var seg := Index(i);
    if i < |ois| || i < |mis| {
      var rest := DiffItems(base, ois, mis, i + 1, orphans);
      DiffItemsSound(base, ois, mis, i + 1, orphans);
      if i < |ois| && i < |mis| {
        var d := DiffValues(base + [seg], ois[i], mis[i], orphans);
        DiffValuesSound(base + [seg], ois[i], mis[i], orphans);
        SoundLift(base, seg, List(ois), List(mis), ois[i], mis[i], orphans, d);
        JoinSound(base, List(ois), List(mis), orphans, d, rest);
      } else if i < |ois| {
        GoneSound(base, seg, List(ois), List(mis), orphans);
        JoinSound(base, List(ois), List(mis), orphans, ChangeSet([], [], [base + [seg]]), rest);
      } else {
        var d := ChangeSet(Added(base + [seg], mis[i], orphans), [], []);
        AddedSound(base, seg, List(ois), List(mis), mis[i], orphans);
        JoinSound(base, List(ois), List(mis), orphans, d, rest);
      }
    }
  }

  /** `diff` on two well-formed documents emits only justified records. */
  lemma DiffSound(original: seq<Field>, modified: seq<Field>, orphans: bool)
    requires WellFormed(Obj(original)) && WellFormed(Obj(modified))
    ensures Sound([], Obj(original), Obj(modified), orphans, Diff(original, modified, orphans))
  {
    DiffValuesSound([], Obj(original), Obj(modified), orphans);
  }
}

=== FILE: differ.dfy ===
/**
 * The tree differencer (`diff`): walks the original and the modified document in
 * lock-step and returns three ordered groups of change records, ADD, SET and DELETE.
 */
module Differ {
  import opened Wrappers
  import opened Json

  /** An ADD or a SET record: the full path and the value to write there. */
  datatype Change = Change(path: Path, value: Value)

  /** The three groups `diff` returns; a DELETE record carries only its path. */
  datatype ChangeSet = ChangeSet(adds: seq<Change>, sets: seq<Change>, deletes: seq<Path>)

  const NoChanges := ChangeSet([], [], [])

  function Join(a: ChangeSet, b: ChangeSet): ChangeSet {
    ChangeSet(a.adds + b.adds, a.sets + b.sets, a.deletes + b.deletes)
  }

  predicate IsEmpty(d: ChangeSet) {
    d.adds == [] && d.sets == [] && d.deletes == []
  }

  /** One record per leaf of `v` (a scalar or an empty collection), at the leaf's full path. */
  function LeafChanges(path: Path, v: Value): seq<Change>
    decreases v, 1, 0
  {
    match v
    case Obj(fields) => if fields == [] then [Change(path, v)] else FieldLeaves(path, fields, 0)
    case List(items) => if items == [] then [Change(path, v)] else ItemLeaves(path, items, 0)
    case _ => [Change(path, v)]
  }

  function FieldLeaves(path: Path, fields: seq<Field>, i: nat): seq<Change>
    requires i <= |fields|
    decreases Obj(fields), 0, |fields| - i
  {
    if i == |fields| then []
    else LeafChanges(path + [Key(fields[i].key)], fields[i].val) + FieldLeaves(path, fields, i + 1)
  }

  function ItemLeaves(path: Path, items: seq<Value>, i: nat): seq<Change>
    requires i <= |items|
    decreases List(items), 0, |items| - i
  {
    if i == |items| then []
    else LeafChanges(path + [Index(i)], items[i]) + ItemLeaves(path, items, i + 1)
  }

  /**
   * What a subtree that only `modified` has contributes to ADD: with orphans, one
   * record per leaf; without, the whole subtree at the point where it hangs off a
   * node the original already had.
   */
  function Added(path: Path, v: Value, orphans: bool): seq<Change> {
    if orphans then LeafChanges(path, v) else [Change(path, v)]
  }

  /** Differences between the node `o` of the original and the node `m` of the modified document at `path`. */
  function DiffValues(path: Path, o: Value, m: Value, orphans: bool): ChangeSet
    decreases o, 1, 0
  {
    if o == m then NoChanges
    else if o.Obj? && m.Obj? then
      Join(DiffFields(path, o.fields, m.fields, 0, orphans),
           ChangeSet(NewFields(path, o.fields, m.fields, 0, orphans), [], []))
    else if o.List? && m.List? then DiffItems(path, o.items, m.items, 0, orphans)
    else if Blank(m) then ChangeSet([], [], [path])
    else ChangeSet([], [Change(path, m)], [])
  }

  /** The original map's keys from position `i` on: a key both maps have is compared, a key the modified map lacks is deleted. */
  function DiffFields(path: Path, ofs: seq<Field>, mfs: seq<Field>, i: nat, orphans: bool): ChangeSet
    requires i <= |ofs|
    decreases Obj(ofs), 0, |ofs| - i
  {
    if i == |ofs| then NoChanges
    else
      var k := ofs[i].key;
      var head :=
        if HasKey(mfs, k) then DiffValues(path + [Key(k)], ofs[i].val, mfs[KeyIndex(mfs, k)].val, orphans)
        else ChangeSet([], [], [path + [Key(k)]]);
      Join(head, DiffFields(path, ofs, mfs, i + 1, orphans))
  }

  /** The modified map's keys from position `i` on that the original map lacks, as additions. */
  function NewFields(path: Path, ofs: seq<Field>, mfs: seq<Field>, i: nat, orphans: bool): seq<Change>
    requires i <= |mfs|
    decreases |mfs| - i
  {
    if i == |mfs| then []
    else if HasKey(ofs, mfs[i].key) then NewFields(path, ofs, mfs, i + 1, orphans)
    else Added(path + [Key(mfs[i].key)], mfs[i].val, orphans) + NewFields(path, ofs, mfs, i + 1, orphans)
  }

  /**
   * Two lists slot by slot from index `i`: common slots are compared, slots past the
   * end of the modified list are deleted, slots past the end of the original are added.
   * Indices never shift.
   */
  function DiffItems(path: Path, ois: seq<Value>, mis: seq<Value>, i: nat, orphans: bool): ChangeSet
    decreases List(ois), 0, |ois| + |mis| - i
  {
    if i < |ois| && i < |mis| then
      Join(DiffValues(path + [Index(i)], ois[i], mis[i], orphans), DiffItems(path, ois, mis, i + 1, orphans))
    else if i < |ois| then
      Join(ChangeSet([], [], [path + [Index(i)]]), DiffItems(path, ois, mis, i + 1, orphans))
    else if i < |mis| then
      Join(ChangeSet(Added(path + [Index(i)], mis[i], orphans), [], []), DiffItems(path, ois, mis, i + 1, orphans))
    else NoChanges
  }

  /** `diff(original, modified, orphans = true)`: both documents are maps at the root. */
  function Diff(original: seq<Field>, modified: seq<Field>, orphans: bool := true): ChangeSet {
    DiffValues([], Obj(original), Obj(modified), orphans)
  }
}

=== FILE: edits.dfy ===
/**
 * The edit helpers the diff is checked against: `applyUpdates` writes a value at each path,
 * `applyDeletes` nulls (or splices out) a list slot or deletes a map key. Both work on a deep
 * copy of the document, one edit after another.
 */
module Edits {
  import opened Wrappers
  import opened Json
  import opened JsonPath
  import opened Differ
  import opened DiffLocality

  /** A deletion whose path matches no node: the path library finds no parent and the helper throws. */
  datatype EditError = NoSuchPath

  /** One update: a path and the value written there. */
  datatype Update = Update(path: Path, value: Value)

  /** The document after every update in order, each creating missing maps and list slots on its way. */
  function SetAll(doc: Value, updates: seq<Update>): Value {
    if updates == [] then doc
    else
      var last := updates[|updates| - 1];
      SetAt(SetAll(doc, updates[..|updates| - 1]), last.path, last.value)
  }

  /** `applyUpdates`: a copy of the document with each update written in turn. */
  method ApplyUpdates(document: Value, updates: seq<Update>) returns (modified: Value)
    ensures modified == SetAll(document, updates)
  {
    modified := document;
    for i := 0 to |updates|
      invariant modified == SetAll(document, updates[..i])
    {
      assert updates[..i + 1][..i] == updates[..i];
      modified := SetAt(modified, updates[i].path, updates[i].value);
    }
    assert updates[..|updates|] == updates;
  }

  /** The last update to a path is what the document then holds there. */
  lemma SetAllLast(doc: Value, updates: seq<Update>)
    requires updates != []
    ensures Get(SetAll(doc, updates), updates[|updates| - 1].path) == Some(updates[|updates| - 1].value)
  {
    var last := updates[|updates| - 1];
    GetSetAt(SetAll(doc, updates[..|updates| - 1]), last.path, last.value);
  }

  /** The node at `p + [seg]` is the node `seg` addresses inside the node at `p`. */
  lemma {:induction false} GetSnoc(v: Value, p: Path, seg: Segment)
    ensures Get(v, p + [seg]) == if Get(v, p).Some? then Get(Get(v, p).value, [seg]) else None
    decreases p
  {
    if p == [] {
      assert [] + [seg] == [seg];
    } else {
      assert (p + [seg])[1..] == p[1..] + [seg];
      match p[0]
      case Key(k) =>
        if v.Obj? && HasKey(v.fields, k) {
          GetSnoc(v.fields[KeyIndex(v.fields, k)].val, p[1..], seg);
        }
      case Index(i) =>
        if v.List? && i < |v.items| {
          GetSnoc(v.items[i], p[1..], seg);
        }
    }
  }

  /** The part of a path string after its last '.', or all of it (JavaScript `split('.').pop()`). */
  function LastDotPiece(s: string): (r: string)
    ensures '.' !in r
    ensures r == s <==> '.' !in s
    ensures |r| <= |s| && r == s[|s| - |r|..]
    ensures |r| < |s| ==> s[|s| - |r| - 1] == '.'
  {
    if s == [] || s[|s| - 1] == '.' then ""
    else LastDotPiece(s[..|s| - 1]) + [s[|s| - 1]]
  }

  /**
   * One deletion, as the helper performs it except for the map-key case: the key to delete is
   * the path's own last key.
   */
  function DeleteOne(doc: Value, path: Path, nullify: bool := true): (r: Result<Value, EditError>)
    ensures r.Err? <==> path == [] || Get(doc, path).None?
  {
    if path == [] || Get(doc, path).None? then Err(NoSuchPath)
    else
      var front := path[..|path| - 1];
      var last := path[|path| - 1];
      assert path == front + [last];
      GetSnoc(doc, front, last);
      var parent := Get(doc, front).value;
      match last
      case Index(i) =>
        if nullify then Ok(SetAt(doc, front, List(parent.items[i := Null])))
        else Ok(SetAt(doc, front, List(parent.items[..i] + parent.items[i + 1..])))
      case Key(k) => Ok(SetAt(doc, front, Obj(RemoveKey(parent.fields, k))))
  }

  /** One deletion exactly as the helper is written: a map key is taken from the path string. */
  function DeleteOneAsWritten(doc: Value, path: Path, nullify: bool := true): (r: Result<Value, EditError>)
    ensures r.Err? <==> path == [] || Get(doc, path).None?
  {
    if path == [] || Get(doc, path).None? then Err(NoSuchPath)
    else
      var front := path[..|path| - 1];
      var last := path[|path| - 1];
      assert path == front + [last];
      GetSnoc(doc, front, last);
      var parent := Get(doc, front).value;
      match last
      case Index(i) =>
        if nullify then Ok(SetAt(doc, front, List(parent.items[i := Null])))
        else Ok(SetAt(doc, front, List(parent.items[..i] + parent.items[i + 1..])))
      case Key(_) => Ok(SetAt(doc, front, Obj(RemoveKey(parent.fields, LastDotPiece(PathString(path))))))
  }

  /** The document after every deletion in order, or the first failure. */
  function DeleteAll(doc: Value, deletes: seq<Path>, nullify: bool := true): Result<Value, EditError> {
    if deletes == [] then Ok(doc)
    else match DeleteAll(doc, deletes[..|deletes| - 1], nullify)
      case Err(e) => Err(e)
      case Ok(d) => DeleteOne(d, deletes[|deletes| - 1], nullify)
  }

  /** `applyDeletes(document, deletes, nullify = true)`: a copy of the document with each deletion performed in turn. */
  method ApplyDeletes(document: Value, deletes: seq<Path>, nullify: bool := true) returns (r: Result<Value, EditError>)
    ensures r == DeleteAll(document, deletes, nullify)
  {
    var modified := document;
    var i := 0;
    while i < |deletes|
      invariant 0 <= i <= |deletes|
      invariant DeleteAll(document, deletes[..i], nullify) == Ok(modified)
    {
      var step := DeleteOne(modified, deletes[i], nullify);
      DeleteAllStep(document, deletes, nullify, i, modified);
      if step.Err? {
        ErrorPersists(document, deletes, nullify, i + 1);
        return step;
      }
      modified := step.value;
      i := i + 1;
    }
    assert deletes[..|deletes|] == deletes;
    return Ok(modified);
  }

  lemma DeleteAllStep(doc: Value, deletes: seq<Path>, nullify: bool, n: nat, d: Value)
    requires n < |deletes| && DeleteAll(doc, deletes[..n], nullify) == Ok(d)
    ensures DeleteAll(doc, deletes[..n + 1], nullify) == DeleteOne(d, deletes[n], nullify)
  {
    assert deletes[..n + 1][..n] == deletes[..n];
  }

  /** Once a deletion fails, the helper has thrown: later deletions do not run. */
  lemma {:induction false} ErrorPersists(doc: Value, deletes: seq<Path>, nullify: bool, n: nat)
    requires n <= |deletes| && DeleteAll(doc, deletes[..n], nullify).Err?
    ensures DeleteAll(doc, deletes, nullify) == DeleteAll(doc, deletes[..n], nullify)
    decreases |deletes| - n
  {
    if n < |deletes| {
      assert deletes[..n + 1][..n] == deletes[..n];
      ErrorPersists(doc, deletes, nullify, n + 1);
    } else {
      assert deletes[..n] == deletes;
    }
  }

  /** Nulling a list slot writes null at its path; the other slots keep their indices. */
  lemma NullifySlot(doc: Value, p: Path, i: nat)
    requires Get(doc, p + [Index(i)]).Some?
    ensures DeleteOne(doc, p + [Index(i)], true) == Ok(SetAt(doc, p + [Index(i)], Null))
  {
    var path := p + [Index(i)];
    assert path[..|path| - 1] == p;
    GetSnoc(doc, p, Index(i));
    SetAtAppend(doc, p, [Index(i)], Null);
  }

  /** Deleting a map key leaves the document without that key, and nothing else changes. */
  lemma DeleteKeyRemoves(doc: Value, p: Path, k: string, nullify: bool)
    requires Get(doc, p + [Key(k)]).Some?
    ensures DeleteOne(doc, p + [Key(k)], nullify).Ok?
    ensures Get(DeleteOne(doc, p + [Key(k)], nullify).value, p + [Key(k)]) == None
    ensures Get(doc, p).Some? && Get(doc, p).value.Obj?
    ensures Get(DeleteOne(doc, p + [Key(k)], nullify).value, p) ==
      Some(Obj(RemoveKey(Get(doc, p).value.fields, k)))
  {
    var path := p + [Key(k)];
    assert path[..|path| - 1] == p;
    GetSnoc(doc, p, Key(k));
    var r := DeleteOne(doc, path, nullify).value;
    var fs := RemoveKey(Get(doc, p).value.fields, k);
    GetSetAt(doc, p, Obj(fs));
    GetSnoc(r, p, Key(k));
  }

  /**
   * The diff sees a deletion as exactly one DELETE record: a removed map key at the key, a
   * nulled list slot at the slot (unless it already held null).
   */
  lemma DiffOfDeletedKey(doc: seq<Field>, p: Path, k: string, nullify: bool, orphans: bool)
    requires WellFormed(Obj(doc)) && Get(Obj(doc), p + [Key(k)]).Some?
    ensures DeleteOne(Obj(doc), p + [Key(k)], nullify).Ok?
    ensures DeleteOne(Obj(doc), p + [Key(k)], nullify).value.Obj?
    ensures Diff(doc, DeleteOne(Obj(doc), p + [Key(k)], nullify).value.fields, orphans) == ChangeSet([], [], [p + [Key(k)]])
  {
    var path := p + [Key(k)];
    assert path[..|path| - 1] == p;
    GetSnoc(Obj(doc), p, Key(k));
    DiffOfRemoveKey(doc, p, k, orphans);
  }

  lemma DiffOfNulledSlot(doc: seq<Field>, p: Path, i: nat, orphans: bool)
    requires WellFormed(Obj(doc)) && Get(Obj(doc), p + [Index(i)]).Some?
    requires Get(Obj(doc), p + [Index(i)]).value != Null
    ensures DeleteOne(Obj(doc), p + [Index(i)], true).Ok?
    ensures DeleteOne(Obj(doc), p + [Index(i)], true).value.Obj?
    ensures Diff(doc, DeleteOne(Obj(doc), p + [Index(i)], true).value.fields, orphans) == ChangeSet([], [], [p + [Index(i)]])
  {
    NullifySlot(Obj(doc), p, i);
    DiffOfClear(doc, p + [Index(i)], Null, orphans);
  }

  /** The diff sees one update of an existing node to a non-blank value, where old and new are not both maps or both lists, as one SET record. */
  lemma DiffOfUpdate(doc: seq<Field>, u: Update, orphans: bool)
    requires WellFormed(Obj(doc)) && u.path != [] && Get(Obj(doc), u.path).Some?
    requires Get(Obj(doc), u.path).value != u.value && !SameKind(Get(Obj(doc), u.path).value, u.value) && !Blank(u.value)
    ensures SetAll(Obj(doc), [u]).Obj?
    ensures Diff(doc, SetAll(Obj(doc), [u]).fields, orphans) == ChangeSet([], [Change(u.path, u.value)], [])
  {
    assert [u][..0] == [];
    DiffOfSet(doc, u.path, u.value, orphans);
  }

  /** The diff sees one new key of an existing map as the ADD records of the new subtree. */
  lemma DiffOfAddition(doc: seq<Field>, p: Path, k: string, v: Value, orphans: bool)
    requires WellFormed(Obj(doc)) && Get(Obj(doc), p).Some? && Get(Obj(doc), p).value.Obj?
    requires !HasKey(Get(Obj(doc), p).value.fields, k)
    ensures SetAll(Obj(doc), [Update(p + [Key(k)], v)]).Obj?
    ensures Diff(doc, SetAll(Obj(doc), [Update(p + [Key(k)], v)]).fields, orphans) == ChangeSet(Added(p + [Key(k)], v, orphans), [], [])
  {
    assert [Update(p + [Key(k)], v)][..0] == [];
    DiffOfAddKey(doc, p, k, v, orphans);
  }

  lemma {:induction false} SegmentsTextSnoc(p: Path, seg: Segment)
    ensures SegmentsText(p + [seg]) == SegmentsText(p) + SegmentText(seg)
    decreases p
  {
    if p == [] {
      assert [] + [seg] == [seg];
    } else {
      assert (p + [seg])[1..] == p[1..] + [seg];
      SegmentsTextSnoc(p[1..], seg);
    }
  }

  /** A string ending in '.' has an empty last piece. */
  lemma LastDotPieceDot(s: string)
    requires s != [] && s[|s| - 1] == '.'
    ensures LastDotPiece(s) == ""
  {
  }

  /** A character other than '.' extends the last piece. */
  lemma LastDotPieceSnoc(s: string, ch: char)
    requires ch != '.'
    ensures LastDotPiece(s + [ch]) == LastDotPiece(s) + [ch]
  {
    var t := s + [ch];
    assert t[..|t| - 1] == s && t[|t| - 1] == ch;
  }

  lemma {:induction false} LastDotPieceAfterDot(a: string, b: string)
    requires '.' !in b
    ensures LastDotPiece(a + "." + b) == b
    decreases |b|
  {
    var c := a + ".";
    assert a + "." + b == c + b;
    if b == [] {
      assert c + b == c;
      LastDotPieceDot(c);
    } else {
      var front, last := b[..|b| - 1], b[|b| - 1];
      assert last in b;
      LastDotPieceAfterDot(a, front);
      assert a + "." + front == c + front;
      assert c + b == (c + front) + [last];
      LastDotPieceSnoc(c + front, last);
      assert b == front + [last];
    }
  }

  lemma IdentifierHasNoDot(k: string)
    requires IsIdentifier(k)
    ensures '.' !in k
  {
    forall i | 0 <= i < |k| ensures k[i] != '.' {
      if i > 0 {
        assert IsIdentChar(k[i]);
      }
    }
  }

  /** For a key written in dot notation the helper deletes the right key. */
  lemma AsWrittenAgreesOnIdentifiers(doc: Value, p: Path, k: string, nullify: bool)
    requires IsIdentifier(k)
    ensures DeleteOneAsWritten(doc, p + [Key(k)], nullify) == DeleteOne(doc, p + [Key(k)], nullify)
  {
    SegmentsTextSnoc(p, Key(k));
    IdentifierHasNoDot(k);
    assert PathString(p + [Key(k)]) == ("$" + SegmentsText(p)) + "." + k;
    LastDotPieceAfterDot("$" + SegmentsText(p), k);
  }

  /** A hexadecimal digit is not '.'. */
  lemma HexDigitNotDot(d: nat)
    requires d < 16
    ensures HexDigit(d) != '.'
  {
    var digits := "0123456789abcdef";
    assert forall i :: 0 <= i < |digits| ==> digits[i] != '.';
  }

  /** Escaping a character other than '.' writes no '.' and at least one character. */
  lemma EscapeCharNoDot(c: char)
    requires c != '.'
    ensures '.' !in EscapeChar(c) && |EscapeChar(c)| >= 1
  {
    if c < ' ' && c as int != 8 && c as int != 12 && c != '\n' && c != '\r' && c != '\t' {
      HexDigitNotDot(c as int / 16);
      HexDigitNotDot(c as int % 16);
    }
  }

  /** Escaping text without '.' writes no '.' and never shortens it. */
  lemma {:induction false} EscapeNoDot(k: string)
    requires '.' !in k
    ensures '.' !in Escape(k) && |Escape(k)| >= |k|
    decreases |k|
  {
    if k != [] {
      assert k[0] in k;
      assert forall c :: c in k[1..] ==> c in k;
      EscapeCharNoDot(k[0]);
      EscapeNoDot(k[1..]);
    }
  }

  lemma PathStringSnoc(p: Path, seg: Segment)
    ensures PathString(p + [seg]) == PathString(p) + SegmentText(seg)
  {
    SegmentsTextSnoc(p, seg);
  }

  /** The last piece of a string that ends in dot-free text covers that text. */
  lemma LastDotPieceCovers(a: string, tail: string)
    requires '.' !in tail
    ensures |LastDotPiece(a + tail)| >= |tail|
  {
    var s := a + tail;
    var r := LastDotPiece(s);
    if |r| < |tail| {
      assert false;
    }
  }

  /** A key in bracket notation without '.' is written as dot-free text longer than the key. */
  lemma BracketedSegment(k: string)
    requires !IsIdentifier(k) && '.' !in k
    ensures '.' !in SegmentText(Key(k)) && |SegmentText(Key(k))| > |k|
  {
    EscapeNoDot(k);
    assert SegmentText(Key(k)) == "[\"" + Escape(k) + "\"]";
  }

  /** The key the helper derives from a bracketed path string is never the key itself. */
  lemma BracketedPiece(p: Path, k: string)
    requires !IsIdentifier(k)
    ensures LastDotPiece(PathString(p + [Key(k)])) != k
  {
    if '.' !in k {
      PathStringSnoc(p, Key(k));
      BracketedSegment(k);
      LastDotPieceCovers(PathString(p), SegmentText(Key(k)));
    }
  }

  /**
   * For a key written in bracket notation (`$["prefix-suffix"]`, `$["Safety.Warning"]`) the
   * helper derives from the path string a key that is never the key itself (the whole string,
   * or a piece ending in `"]`): the deletion leaves the key in place.
   */
  lemma AsWrittenMissesBracketedKeys(doc: Value, p: Path, k: string, nullify: bool)
    requires !IsIdentifier(k)
    requires Get(doc, p + [Key(k)]).Some?
    ensures DeleteOneAsWritten(doc, p + [Key(k)], nullify).Ok?
    ensures Get(DeleteOneAsWritten(doc, p + [Key(k)], nullify).value, p + [Key(k)]) == Get(doc, p + [Key(k)])
  {
    var path := p + [Key(k)];
    assert path[..|path| - 1] == p;
    GetSnoc(doc, p, Key(k));
    var key := LastDotPiece(PathString(path));
    BracketedPiece(p, k);
    var fields := Get(doc, p).value.fields;
    var r := DeleteOneAsWritten(doc, path, nullify).value;
    assert r == SetAt(doc, p, Obj(RemoveKey(fields, key)));
    GetSetAt(doc, p, Obj(RemoveKey(fields, key)));
    GetSnoc(r, p, Key(k));
    LookupRemoveKey(fields, key, k);
  }

  /**
   * The document `{"prefix-suffix": 1}` and the deletion `$["prefix-suffix"]`: as written the
   * key survives, while the corrected deletion removes it.
   */
  lemma BracketedKeyCounterexample(doc: Value, path: Path)
    requires doc == Obj([Field("prefix-suffix", Num(1))]) && path == [Key("prefix-suffix")]
    ensures DeleteOneAsWritten(doc, path, true).Ok?
    ensures Get(DeleteOneAsWritten(doc, path, true).value, path) == Some(Num(1))
    ensures DeleteOne(doc, path, true).Ok? && Get(DeleteOne(doc, path, true).value, path) == None
  {
    var k := "prefix-suffix";
    assert !IsIdentifier(k) by {
      assert !IsIdentChar(k[6]);
    }
    assert path == [] + [Key(k)];
    assert Get(doc, path) == Some(Num(1));
    AsWrittenMissesBracketedKeys(doc, [], k, true);
    DeleteKeyRemoves(doc, [], k, true);
  }
}

=== FILE: json.dfy ===
/**
 * The JSON-shaped documents the differencer compares: null, booleans, integers,
 * strings, lists and insertion-ordered maps, addressed by paths of map keys and
 * list indices.
 */
module Json {
  import opened Wrappers

  datatype Value =
    | Null
    | Bool(b: bool)
    | Num(n: int)
    | Str(s: string)
    | List(items: seq<Value>)
    | Obj(fields: seq<Field>)

  /** One entry of a map; a map keeps its entries in insertion order. */
  datatype Field = Field(key: string, val: Value)

  datatype Segment = Key(name: string) | Index(i: nat)

  /** A root-anchored address: `$.a.b[2]` is [Key("a"), Key("b"), Index(2)]. */
  type Path = seq<Segment>

  /** Position of the first entry with key `k`, or |fields| when there is none. */
  function KeyIndex(fields: seq<Field>, k: string): (j: nat)
    ensures j <= |fields|
    ensures j < |fields| ==> fields[j].key == k
    ensures forall i :: 0 <= i < j ==> fields[i].key != k
  {
    if fields == [] then 0
    else if fields[0].key == k then 0
    else 1 + KeyIndex(fields[1..], k)
  }

  /** KeyIndex is determined by its contract: the first position holding `k`. */
  lemma KeyIndexIs(fields: seq<Field>, k: string, j: nat)
    requires j <= |fields|
    requires j < |fields| ==> fields[j].key == k
    requires forall i :: 0 <= i < j ==> fields[i].key != k
    ensures KeyIndex(fields, k) == j
  {
  }

  predicate HasKey(fields: seq<Field>, k: string) {
    KeyIndex(fields, k) < |fields|
  }

  function Lookup(fields: seq<Field>, k: string): (r: Option<Value>)
    ensures r.Some? <==> HasKey(fields, k)
  {
    var j := KeyIndex(fields, k);
    if j < |fields| then Some(fields[j].val) else None
  }

  ghost predicate UniqueKeys(fields: seq<Field>) {
    forall i, j :: 0 <= i < j < |fields| ==> fields[i].key != fields[j].key
  }

  /** Every map in the tree has pairwise distinct keys, as every JavaScript object does. */
  ghost predicate WellFormed(v: Value) {
    match v
    case List(items) => forall i :: 0 <= i < |items| ==> WellFormed(items[i])
    case Obj(fields) =>
      && UniqueKeys(fields)
      && forall i :: 0 <= i < |fields| ==> WellFormed(fields[i].val)
    case _ => true
  }

  /** The node at `path`, if the path leads anywhere. */
  function Get(v: Value, path: Path): Option<Value>
    decreases path
  {
    if path == [] then Some(v)
    else match path[0]
      case Key(k) =>
        if v.Obj? && HasKey(v.fields, k) then Get(v.fields[KeyIndex(v.fields, k)].val, path[1..])
        else None
      case Index(i) =>
        if v.List? && i < |v.items| then Get(v.items[i], path[1..]) else None
  }

  /** A node the differencer does not descend into: a scalar or an empty collection. */
  predicate IsLeaf(v: Value) {
    match v
    case List(items) => items == []
    case Obj(fields) => fields == []
    case _ => true
  }

  /** A value the store treats as absent: null (or JavaScript undefined) and the empty string. */
  predicate Blank(v: Value) {
    v == Null || v == Str("")
  }

  /** Both maps or both lists: the differencer compares such nodes member by member. */
  predicate SameKind(a: Value, b: Value) {
    (a.Obj? && b.Obj?) || (a.List? && b.List?)
  }

  function Nulls(n: nat): (r: seq<Value>)
    ensures |r| == n && forall i :: 0 <= i < n ==> r[i] == Null
  {
    seq(n, _ => Null)
  }

  /**
   * Writes `x` at `path`. Missing levels are created on the way: a map for a key
   * segment, a list for an index segment, and a list written past its end is padded
   * with nulls. A node of the wrong kind on the way is replaced by a new container.
   */
  function SetAt(v: Value, path: Path, x: Value): Value
    decreases path
  {
    if path == [] then x
    else match path[0]
      case Key(k) =>
        var fields := if v.Obj? then v.fields else [];
        var j := KeyIndex(fields, k);
        if j < |fields| then Obj(fields[j := Field(k, SetAt(fields[j].val, path[1..], x))])
        else Obj(fields + [Field(k, SetAt(Null, path[1..], x))])
      case Index(i) =>
        var items := if v.List? then v.items else [];
        if i < |items| then List(items[i := SetAt(items[i], path[1..], x)])
        else List(items + Nulls(i - |items|) + [SetAt(Null, path[1..], x)])
  }

  /** The map without its entries for key `k`. */
  function RemoveKey(fields: seq<Field>, k: string): (r: seq<Field>)
    ensures !HasKey(r, k)
    ensures forall f :: f in r <==> f in fields && f.key != k
  {
    if fields == [] then []
    else if fields[0].key == k then RemoveKey(fields[1..], k)
    else [fields[0]] + RemoveKey(fields[1..], k)
  }

  /** Reading back what was just written. */
  lemma {:induction false} GetSetAt(v: Value, path: Path, x: Value)
    ensures Get(SetAt(v, path, x), path) == Some(x)
    decreases path
  {
    if path != [] {
      match path[0]
      case Key(k) =>
        var fields := if v.Obj? then v.fields else [];
        var j := KeyIndex(fields, k);
        if j < |fields| {
          GetSetAt(fields[j].val, path[1..], x);
          var fs := fields[j := Field(k, SetAt(fields[j].val, path[1..], x))];
          KeyIndexIs(fs, k, j);
        } else {
          GetSetAt(Null, path[1..], x);
          var fs := fields + [Field(k, SetAt(Null, path[1..], x))];
          KeyIndexIs(fs, k, |fields|);
        }
      case Index(i) =>
        var items := if v.List? then v.items else [];
        if i < |items| {
          GetSetAt(items[i], path[1..], x);
        } else {
          GetSetAt(Null, path[1..], x);
        }
    }
  }

  /** Following a path one segment at a time. */
  lemma GetCons(v: Value, seg: Segment, rest: Path)
    ensures Get(v, [seg] + rest) == (if Get(v, [seg]).Some? then Get(Get(v, [seg]).value, rest) else None)
  {
    assert ([seg] + rest)[1..] == rest;
    assert [seg][1..] == [];
  }

  /** In a map with distinct keys, the entry at position `i` is the one its key finds. */
  lemma KeyIndexOfUnique(fields: seq<Field>, i: nat)
    requires UniqueKeys(fields) && i < |fields|
    ensures KeyIndex(fields, fields[i].key) == i
  {
    KeyIndexIs(fields, fields[i].key, i);
  }

  /** Every key of a map is found by KeyIndex. */
  lemma HasOwnKey(fields: seq<Field>, i: nat)
    requires i < |fields|
    ensures HasKey(fields, fields[i].key)
  {
  }

  /** Looking a key up in a map with one more entry in front. */
  lemma LookupCons(f: Field, rest: seq<Field>, k: string)
    ensures Lookup([f] + rest, k) == if f.key == k then Some(f.val) else Lookup(rest, k)
  {
    assert ([f] + rest)[0] == f;
    assert ([f] + rest)[1..] == rest;
  }

  /** Removing key `k` leaves every other key's lookup as it was. */
  lemma {:induction false} LookupRemoveKey(fields: seq<Field>, k: string, k': string)
    requires k' != k
    ensures Lookup(RemoveKey(fields, k), k') == Lookup(fields, k')
  {
    if fields != [] {
      assert fields == [fields[0]] + fields[1..];
      LookupRemoveKey(fields[1..], k, k');
      LookupCons(fields[0], fields[1..], k');
      if fields[0].key != k {
        LookupCons(fields[0], RemoveKey(fields[1..], k), k');
      }
    }
  }

  /** Writing below an existing node is writing a changed copy of that node at its own path. */
  lemma {:induction false} SetAtAppend(v: Value, p: Path, q: Path, x: Value)
    requires Get(v, p).Some?
    ensures SetAt(v, p + q, x) == SetAt(v, p, SetAt(Get(v, p).value, q, x))
    decreases p
  {
    if p == [] {
      assert p + q == q;
    } else {
      assert (p + q)[0] == p[0];
      assert (p + q)[1..] == p[1..] + q;
      match p[0]
      case Key(k) =>
        SetAtAppend(v.fields[KeyIndex(v.fields, k)].val, p[1..], q, x);
      case Index(i) =>
        SetAtAppend(v.items[i], p[1..], q, x);
    }
  }

  /** Replacing the value of an entry keeps a well-formed map well formed. */
  lemma ReplaceFieldWellFormed(fields: seq<Field>, j: nat, x: Value)
    requires WellFormed(Obj(fields)) && j < |fields| && WellFormed(x)
    ensures WellFormed(Obj(fields[j := Field(fields[j].key, x)]))
  {
    var fs := fields[j := Field(fields[j].key, x)];
    assert forall i :: 0 <= i < |fs| ==> fs[i].key == fields[i].key;
  }

  /** Appending an entry under a new key keeps a well-formed map well formed. */
  lemma AppendFieldWellFormed(fields: seq<Field>, k: string, x: Value)
    requires WellFormed(Obj(fields)) && !HasKey(fields, k) && WellFormed(x)
    ensures WellFormed(Obj(fields + [Field(k, x)]))
  {
    var fs := fields + [Field(k, x)];
    assert forall i :: 0 <= i < |fields| ==> fs[i] == fields[i];
  }

  /** Padding a well-formed list with nulls and one well-formed value keeps it well formed. */
  lemma PadItemsWellFormed(items: seq<Value>, n: nat, x: Value)
    requires WellFormed(List(items)) && WellFormed(x)
    ensures WellFormed(List(items + Nulls(n) + [x]))
  {
    var its := items + Nulls(n) + [x];
    forall m | 0 <= m < |its| ensures WellFormed(its[m]) {
      if m < |items| {
        assert its[m] == items[m];
      } else if m < |items| + n {
        assert its[m] == Null;
      }
    }
  }

  /** Writing a well-formed value into a well-formed tree keeps the tree well formed. */
  lemma {:induction false} SetAtWellFormed(v: Value, path: Path, x: Value)
    requires WellFormed(v) && WellFormed(x)
    ensures WellFormed(SetAt(v, path, x))
    decreases path
  {
    if path != [] {
      match path[0]
      case Key(k) =>
        var fields := if v.Obj? then v.fields else [];
        var j := KeyIndex(fields, k);
        if j < |fields| {
          SetAtWellFormed(fields[j].val, path[1..], x);
          ReplaceFieldWellFormed(fields, j, SetAt(fields[j].val, path[1..], x));
        } else {
          SetAtWellFormed(Null, path[1..], x);
          AppendFieldWellFormed(fields, k, SetAt(Null, path[1..], x));
        }
      case Index(i) =>
        var items := if v.List? then v.items else [];
        if i < |items| {
          SetAtWellFormed(items[i], path[1..], x);
          assert WellFormed(List(items[i := SetAt(items[i], path[1..], x)]));
        } else {
          SetAtWellFormed(Null, path[1..], x);
          PadItemsWellFormed(items, i - |items|, SetAt(Null, path[1..], x));
        }
    }
  }

  /** Every node of a well-formed document is well formed. */
  lemma {:induction false} WellFormedGet(v: Value, p: Path)
    requires WellFormed(v) && Get(v, p).Some?
    ensures WellFormed(Get(v, p).value)
    decreases p
  {
    if p != [] {
      match p[0]
      case Key(k) => WellFormedGet(v.fields[KeyIndex(v.fields, k)].val, p[1..]);
      case Index(i) => WellFormedGet(v.items[i], p[1..]);
    }
  }
}

=== FILE: json_path.dfy ===
/**
 * The JSONPath text of a path, as change records carry it (`stringPath`) and as the
 * clauses are ordered: `$` followed by `.key` for a key that is an identifier,
 * `["key"]` with the key JSON-quoted for any other key, and `[i]` for a list index.
 */
module JsonPath {
  import opened Json
  import opened Decimal
  import opened Camel

  predicate IsIdentStart(c: char) { IsUpper(c) || IsLower(c) || c == '_' }
  predicate IsIdentChar(c: char) { IsIdentStart(c) || IsDigit(c) }

  /** Keys matching `[a-zA-Z_][a-zA-Z0-9_]*` are written in dot notation. */
  predicate IsIdentifier(k: string) {
    |k| >= 1 && IsIdentStart(k[0]) && forall i :: 1 <= i < |k| ==> IsIdentChar(k[i])
  }

  function HexDigit(d: nat): (c: char)
    requires d < 16
  {
    "0123456789abcdef"[d]
  }

  /** JSON string escaping of one character. */
  function EscapeChar(c: char): string {
    if c == '"' then "\\\""
    else if c == '\\' then "\\\\"
    else if c == '\n' then "\\n"
    else if c == '\r' then "\\r"
    else if c == '\t' then "\\t"
    else if c as int == 8 then "\\b"
    else if c as int == 12 then "\\f"
    else if c < ' ' then "\\u00" + [HexDigit(c as int / 16), HexDigit(c as int % 16)]
    else [c]
  }

  function Escape(s: string): string {
    if s == [] then "" else EscapeChar(s[0]) + Escape(s[1..])
  }

  /** The text of a key as JSON.stringify writes it: quoted and escaped. */
  function Quote(k: string): string {
    "\"" + Escape(k) + "\""
  }

  function SegmentText(seg: Segment): string {
    match seg
    case Key(k) => if IsIdentifier(k) then "." + k else "[" + Quote(k) + "]"
    case Index(i) => "[" + Digits(i) + "]"
  }

  function SegmentsText(p: Path): string {
    if p == [] then "" else SegmentText(p[0]) + SegmentsText(p[1..])
  }

  /** The `stringPath` of a change record. */
  function PathString(p: Path): string {
    "$" + SegmentsText(p)
  }
}

=== FILE: sorting.dfy ===
/**
 * The order clauses are rendered in: ascending by JSONPath text, compared character
 * by character as JavaScript compares strings.
 */
module Sorting {
  /** Lexicographic order on strings; a proper prefix comes first. */
  predicate StrLeq(a: string, b: string)
    decreases |a|
  {
    a == [] || (b != [] && (a[0] < b[0] || (a[0] == b[0] && StrLeq(a[1..], b[1..]))))
  }

  lemma {:induction false} StrLeqTotal(a: string, b: string)
    ensures StrLeq(a, b) || StrLeq(b, a)
    decreases |a|
  {
    if a != [] && b != [] && a[0] == b[0] {
      StrLeqTotal(a[1..], b[1..]);
    }
  }

  lemma {:induction false} StrLeqTrans(a: string, b: string, c: string)
    requires StrLeq(a, b) && StrLeq(b, c)
    ensures StrLeq(a, c)
    decreases |a|
  {
    if a != [] && a[0] == b[0] && b[0] == c[0] {
      StrLeqTrans(a[1..], b[1..], c[1..]);
    }
  }

  lemma {:induction false} StrLeqAntisym(a: string, b: string)
    requires StrLeq(a, b) && StrLeq(b, a)
    ensures a == b
    decreases |a|
  {
    if a != [] {
      StrLeqAntisym(a[1..], b[1..]);
      assert a == [a[0]] + a[1..] && b == [b[0]] + b[1..];
    }
  }

  ghost predicate SortedBy<T>(s: seq<T>, key: T -> string) {
    forall i, j :: 0 <= i < j < |s| ==> StrLeq(key(s[i]), key(s[j]))
  }

  lemma SortedCons<T>(h: T, s: seq<T>, key: T -> string)
    requires SortedBy(s, key)
    requires forall y :: y in s ==> StrLeq(key(h), key(y))
    ensures SortedBy([h] + s, key)
  {
    forall i, j | 0 <= i < j < |[h] + s|
      ensures StrLeq(key(([h] + s)[i]), key(([h] + s)[j]))
    {
      if i > 0 {
        assert ([h] + s)[i] == s[i - 1];
      }
      assert ([h] + s)[j] == s[j - 1];
    }
  }

  /** Puts `x` into a sorted sequence, before the first element whose key is not below its own. */
  function Insert<T>(x: T, s: seq<T>, key: T -> string): (r: seq<T>)
    requires SortedBy(s, key)
    ensures SortedBy(r, key)
    ensures multiset(r) == multiset(s) + multiset{x}
    ensures forall y :: y in r ==> y == x || y in s
  {
    if s == [] then [x]
    else if StrLeq(key(x), key(s[0])) then
      assert forall y :: y in s ==> StrLeq(key(x), key(y)) by {
        forall y | y in s ensures StrLeq(key(x), key(y)) {
          var j :| 0 <= j < |s| && s[j] == y;
          if j > 0 { StrLeqTrans(key(x), key(s[0]), key(s[j])); }
        }
      }
      SortedCons(x, s, key);
      [x] + s
    else
      StrLeqTotal(key(x), key(s[0]));
      var rest := Insert(x, s[1..], key);
      assert forall y :: y in rest ==> StrLeq(key(s[0]), key(y)) by {
        forall y | y in rest ensures StrLeq(key(s[0]), key(y)) {
          if y != x {
            var j :| 0 <= j < |s[1..]| && s[1..][j] == y;
            assert s[j + 1] == y;
          }
        }
      }
      SortedCons(s[0], rest, key);
      assert s == [s[0]] + s[1..];
      [s[0]] + rest
  }

  /** A stable insertion sort by key. */
  function SortBy<T>(s: seq<T>, key: T -> string): (r: seq<T>)
    ensures SortedBy(r, key)
    ensures multiset(r) == multiset(s)
  {
    if s == [] then []
    else
      assert s == [s[0]] + s[1..];
      Insert(s[0], SortBy(s[1..], key), key)
  }
}

=== FILE: version_lock.dfy ===
/**
 * The version-lock condition builder: `getVersionedUpdateExpression` (the update expression
 * of a document change plus a condition on a version or range field) and
 * `getVersionLockExpression` (only the version field's own SET clause plus the condition).
 */
module VersionLock {
  import opened Wrappers
  import opened Json
  import opened Differ
  import opened Aliases
  import opened Assembler

  /** The single failure kind, raised before any output exists. */
  datatype Error = InvalidArguments

  /** The comparison a caller may ask the condition to make. */
  datatype CompareOp = Eq | Ne | Lt | Le | Gt | Ge

  function OpText(op: CompareOp): string {
    match op
    case Eq => "="
    case Ne => "<>"
    case Lt => "<"
    case Le => "<="
    case Gt => ">"
    case Ge => ">="
  }

  /** The condition: a first-write guard, or a comparison of the stored field with an expected literal. */
  datatype Condition = NotExists(steps: seq<Step>) | Compare(steps: seq<Step>, op: CompareOp, token: string)

  function ConditionText(c: Condition): string {
    match c
    case NotExists(steps) => "attribute_not_exists (" + StepsText(steps) + ")"
    case Compare(steps, op, tok) => StepsText(steps) + " " + OpText(op) + " " + tok
  }

  /** The result object of both entry points. */
  datatype LockExpression = LockExpression(
    updateExpression: string,
    conditionExpression: string,
    names: Option<map<string, string>>,
    values: Option<map<string, Value>>)

  /** The alias namespace of the condition when the caller gives none. */
  const DefaultPrefix := "expected"

  /** The version path when the caller gives none: `$.version`. */
  const DefaultVersionPath: Path := [Key("version")]

  /** A version path addresses an attribute: it is not the root and starts with a key. */
  predicate ValidVersionPath(p: Path) {
    p != [] && p[0].Key?
  }

  /** The version the stored item is expected to hold: the original's, else the caller's override. */
  function CurrentVersion(original: seq<Field>, versionPath: Path, currentVersion: Option<Value>): Option<Value> {
    if Get(Obj(original), versionPath).Some? then Get(Obj(original), versionPath) else currentVersion
  }

  /** The version to write: the explicit one, else the current number plus one, else 1 on a first write. */
  function NextVersion(explicit: Option<Value>, current: Option<Value>): (r: Result<Value, Error>)
    ensures explicit.Some? ==> r == Ok(explicit.value)
    ensures explicit.None? && current.None? ==> r == Ok(Num(1))
    ensures explicit.None? && current.Some? && current.value.Num? ==> r == Ok(Num(current.value.n + 1))
    ensures r.Err? <==> explicit.None? && current.Some? && !current.value.Num?
  {
    if explicit.Some? then Ok(explicit.value)
    else match current
      case None => Ok(Num(1))
      case Some(Num(n)) => Ok(Num(n + 1))
      case Some(_) => Err(InvalidArguments)
  }

  /** The modified document with the new version written at the version path. */
  function WithVersion(modified: seq<Field>, versionPath: Path, version: Value): (r: seq<Field>)
    requires ValidVersionPath(versionPath)
    ensures Get(Obj(r), versionPath) == Some(version)
  {
    GetSetAt(Obj(modified), versionPath, version);
    SetAt(Obj(modified), versionPath, version).fields
  }

  /**
   * Aliases the version path in the condition's namespace and, unless the condition is the
   * first-write guard, allocates the token of the expected literal.
   */
  function PlanCondition(t: Table, prefix: string, versionPath: Path, expected: Option<Value>, op: CompareOp)
    : (r: (Table, Condition))
    ensures StepsMatch(r.1.steps, versionPath, r.0.names) && Extends(t, r.0)
    ensures r.1.NotExists? <==> expected.None?
    ensures expected.None? ==> r.0.values == t.values
    ensures r.1.Compare? ==> r.1.op == op && r.0.values == t.values[r.1.token := expected.value]
    ensures r.1.Compare? ==> r.1.token in r.0.owners && r.0.owners[r.1.token] == versionPath
    ensures r.1.Compare? && Reusable(t.owners, ValueCandidate(prefix, versionPath), versionPath) ==>
      r.1.token == ValueCandidate(prefix, versionPath)
    ensures r.1.Compare? && !Reusable(t.owners, ValueCandidate(prefix, versionPath), versionPath) ==> r.1.token !in t.owners
  {
    var (t1, steps) := AliasSteps(t, prefix, versionPath);
    if expected.None? then (t1, NotExists(steps))
    else
      var (t2, tok) := AllocValue(t1, ValueCandidate(prefix, versionPath), versionPath, expected.value);
      StepsMatchExtends(steps, versionPath, t1, t2);
      (t2, Compare(steps, op, tok))
  }

  function Finish(setPart: string, c: Condition, t: Table): LockExpression {
    LockExpression(setPart, ConditionText(c),
      if t.names == map[] then None else Some(t.names),
      if t.values == map[] then None else Some(t.values))
  }

  /** Everything the versioned expression is rendered from. */
  datatype VersionedPlan = VersionedPlan(document: seq<Field>, version: Value, plan: Plan, table: Table, condition: Condition)

  /**
   * `getVersionedUpdateExpression`: the version is written into the modified document, the
   * change between the documents is planned as by `getUpdateExpression`, and the condition is
   * aliased afterwards in its own namespace `prefix`.
   */
  function PlanVersioned(
    original: seq<Field> := [], modified: seq<Field>, orphans: bool := false, versionPath: Path := DefaultVersionPath,
    useCurrent: bool := true, currentVersion: Option<Value> := None, op: CompareOp, prefix: string := DefaultPrefix)
    : Result<VersionedPlan, Error>
  {
    if !ValidVersionPath(versionPath) then Err(InvalidArguments)
    else
      var current := CurrentVersion(original, versionPath, currentVersion);
      match NextVersion(Get(Obj(modified), versionPath), current)
      case Err(e) => Err(e)
      case Ok(version) =>
        var doc := WithVersion(modified, versionPath, version);
        var p := PlanChanges(EmptyTable, "", Diff(original, doc, orphans));
        var expected := if current.None? then None else Some(if useCurrent then current.value else version);
        var (t, c) := PlanCondition(p.table, prefix, versionPath, expected, op);
        Ok(VersionedPlan(doc, version, p, t, c))
  }

  function GetVersionedUpdateExpression(
    original: seq<Field> := [], modified: seq<Field>, orphans: bool := false, versionPath: Path := DefaultVersionPath,
    useCurrent: bool := true, currentVersion: Option<Value> := None, op: CompareOp, prefix: string := DefaultPrefix)
    : Result<LockExpression, Error>
  {
    match PlanVersioned(original, modified, orphans, versionPath, useCurrent, currentVersion, op, prefix)
    case Err(e) => Err(e)
    case Ok(v) => Ok(Finish(Render(v.plan.assigns, v.plan.removes), v.condition, v.table))
  }

  /** Everything the lock expression is rendered from. */
  datatype LockPlan = LockPlan(version: Value, clause: Clause, table: Table, condition: Condition)

  /**
   * `getVersionLockExpression`: no document change, only `SET <version> = <new version>`; the
   * expected version is the original's, else the override, else the new version itself.
   */
  function PlanLock(
    original: seq<Field> := [], versionPath: Path := DefaultVersionPath, newVersion: Option<Value> := None,
    currentVersion: Option<Value> := None, op: CompareOp)
    : Result<LockPlan, Error>
  {
    if !ValidVersionPath(versionPath) then Err(InvalidArguments)
    else
      var current :=
        if CurrentVersion(original, versionPath, currentVersion).Some? then CurrentVersion(original, versionPath, currentVersion)
        else newVersion;
      match NextVersion(newVersion, current)
      case Err(e) => Err(e)
      case Ok(version) =>
        var (t1, clause) := PlanAssign(EmptyTable, "", Change(versionPath, version));
        var (t2, c) := PlanCondition(t1, DefaultPrefix, versionPath, current, op);
        Ok(LockPlan(version, clause, t2, c))
  }

  function GetVersionLockExpression(
    original: seq<Field> := [], versionPath: Path := DefaultVersionPath, newVersion: Option<Value> := None,
    currentVersion: Option<Value> := None, op: CompareOp)
    : Result<LockExpression, Error>
  {
    match PlanLock(original, versionPath, newVersion, currentVersion, op)
    case Err(e) => Err(e)
    case Ok(l) => Ok(Finish(Render([l.clause], []), l.condition, l.table))
  }
}

=== FILE: version_props.dfy ===
/** The decision table of the version-lock builders, and what their tables promise. */
module VersionLockProperties {
  import opened Wrappers
  import opened Json
  import opened Differ
  import opened Aliases
  import opened Assembler
  import opened DiffSoundness
  import opened AssemblerProperties
  import opened VersionLock
  import opened Camel
  import AliasExamples

  /**
   * `getVersionedUpdateExpression` fails exactly when the version path does not address an
   * attribute, or when the version must be auto-incremented but the current one is not a number.
   */
  lemma VersionedFails(
    original: seq<Field>, modified: seq<Field>, orphans: bool, versionPath: Path,
    useCurrent: bool, currentVersion: Option<Value>, op: CompareOp, prefix: string)
    ensures var current := CurrentVersion(original, versionPath, currentVersion);
      PlanVersioned(original, modified, orphans, versionPath, useCurrent, currentVersion, op, prefix).Err? <==>
        (!ValidVersionPath(versionPath) || (Get(Obj(modified), versionPath).None? && current.Some? && !current.value.Num?))
  {
  }

  /** The decision table, read off the parts the versioned expression is built from. */
  lemma DecisionOfParts(
    modified: seq<Field>, versionPath: Path, current: Option<Value>, useCurrent: bool, op: CompareOp, prefix: string,
    t: Table, version: Value, document: seq<Field>, table: Table, condition: Condition)
    requires ValidVersionPath(versionPath)
    requires NextVersion(Get(Obj(modified), versionPath), current) == Ok(version)
    requires document == WithVersion(modified, versionPath, version)
    requires (table, condition) ==
      PlanCondition(t, prefix, versionPath, if current.None? then None else Some(if useCurrent then current.value else version), op)
    ensures condition.NotExists? <==> current.None?
    ensures condition.Compare? ==>
      condition.op == op && condition.token in table.values &&
      Some(table.values[condition.token]) == (if useCurrent then current else Some(version))
    ensures StepsMatch(condition.steps, versionPath, table.names)
    ensures Get(Obj(modified), versionPath).Some? ==> version == Get(Obj(modified), versionPath).value
    ensures Get(Obj(modified), versionPath).None? && current.Some? ==>
      current.value.Num? && version == Num(current.value.n + 1)
    ensures Get(Obj(modified), versionPath).None? && current.None? ==> version == Num(1)
    ensures Get(Obj(document), versionPath) == Some(version)
  {
  }

  /**
   * The versioned decision table: the first-write guard exactly when neither the original nor
   * the override supplies a version; otherwise a comparison with `op` whose token holds the
   * current version (`useCurrent`) or the new one. The new version is the modified document's,
   * else the current number plus one, else 1; it is what the planned document holds.
   */
  lemma VersionedDecision(
    original: seq<Field>, modified: seq<Field>, orphans: bool, versionPath: Path,
    useCurrent: bool, currentVersion: Option<Value>, op: CompareOp, prefix: string)
    requires PlanVersioned(original, modified, orphans, versionPath, useCurrent, currentVersion, op, prefix).Ok?
    ensures var v := PlanVersioned(original, modified, orphans, versionPath, useCurrent, currentVersion, op, prefix).value;
      var current := CurrentVersion(original, versionPath, currentVersion);
      && (v.condition.NotExists? <==> Get(Obj(original), versionPath).None? && currentVersion.None?)
      && (v.condition.Compare? ==>
            v.condition.op == op && v.condition.token in v.table.values &&
            Some(v.table.values[v.condition.token]) == (if useCurrent then current else Some(v.version)))
      && StepsMatch(v.condition.steps, versionPath, v.table.names)
      && (Get(Obj(modified), versionPath).Some? ==> v.version == Get(Obj(modified), versionPath).value)
      && (Get(Obj(modified), versionPath).None? && current.Some? ==>
            current.value.Num? && v.version == Num(current.value.n + 1))
      && (Get(Obj(modified), versionPath).None? && current.None? ==> v.version == Num(1))
      && Get(Obj(v.document), versionPath) == Some(v.version)
  {
    var v := PlanVersioned(original, modified, orphans, versionPath, useCurrent, currentVersion, op, prefix).value;
    var current := CurrentVersion(original, versionPath, currentVersion);
    var expected := if current.None? then None else Some(if useCurrent then current.value else v.version);
    VersionedParts(original, modified, orphans, versionPath, useCurrent, currentVersion, op, prefix);
    DecisionOfParts(modified, versionPath, current, useCurrent, op, prefix, v.plan.table, v.version, v.document, v.table, v.condition);
  }

  /** The steps `getVersionedUpdateExpression` takes, named one by one. */
  lemma VersionedParts(
    original: seq<Field>, modified: seq<Field>, orphans: bool, versionPath: Path,
    useCurrent: bool, currentVersion: Option<Value>, op: CompareOp, prefix: string)
    requires PlanVersioned(original, modified, orphans, versionPath, useCurrent, currentVersion, op, prefix).Ok?
    ensures var v := PlanVersioned(original, modified, orphans, versionPath, useCurrent, currentVersion, op, prefix).value;
      var current := CurrentVersion(original, versionPath, currentVersion);
      var expected := if current.None? then None else Some(if useCurrent then current.value else v.version);
      && ValidVersionPath(versionPath)
      && NextVersion(Get(Obj(modified), versionPath), current) == Ok(v.version)
      && v.document == WithVersion(modified, versionPath, v.version)
      && v.plan == PlanChanges(EmptyTable, "", Diff(original, v.document, orphans))
      && (v.table, v.condition) == PlanCondition(v.plan.table, prefix, versionPath, expected, op)
  {
  }

  /** The condition rebinds no value token that belongs to another path. */
  lemma ConditionKeeps(t: Table, prefix: string, versionPath: Path, expected: Option<Value>, op: CompareOp)
    ensures var r := PlanCondition(t, prefix, versionPath, expected, op);
      forall tok :: tok in t.values && tok in t.owners && t.owners[tok] != versionPath ==>
        tok in r.0.values && r.0.values[tok] == t.values[tok]
  {
  }

  /** Aliasing the condition after a plan keeps the plan's clauses resolved and its values. */
  lemma PlanKeeps(p: Plan, prefix: string, versionPath: Path, expected: Option<Value>, op: CompareOp)
    requires AllResolve(p.assigns, p.table) && AllResolve(p.removes, p.table)
    ensures var r := PlanCondition(p.table, prefix, versionPath, expected, op);
      && AllResolve(p.assigns, r.0) && AllResolve(p.removes, r.0)
      && forall tok :: tok in p.table.values && tok in p.table.owners && p.table.owners[tok] != versionPath ==>
           tok in r.0.values && r.0.values[tok] == p.table.values[tok]
  {
    var r := PlanCondition(p.table, prefix, versionPath, expected, op);
    ConditionKeeps(p.table, prefix, versionPath, expected, op);
    AllResolveExtends(p.assigns, p.table, r.0);
    AllResolveExtends(p.removes, p.table, r.0);
  }

  /** The condition's value candidate in the default namespace is eight characters longer than the update's. */
  lemma ExpectedCandidateLonger(versionPath: Path)
    ensures |ValueCandidate(DefaultPrefix, versionPath)| == |ValueCandidate("", versionPath)| + 8
  {
    var ws := PathWords(versionPath);
    AliasExamples.ExpectedWord(DefaultPrefix);
    var long := [DefaultPrefix] + ws;
    assert long[0] == DefaultPrefix && long[1..] == ws;
    assert |CamelCase(long)| == 8 + |CapitalizeAll(ws)|;
    CapitalizeAllLength(ws);
    assert Words("") == [];
    assert [] + ws == ws;
    CamelCaseLength(ws);
  }

  /**
   * The condition's token is its candidate when that is usable and fresh otherwise, so it
   * takes over no token of the table other than the candidate itself.
   */
  lemma ConditionTokenOther(t: Table, prefix: string, versionPath: Path, expected: Option<Value>, op: CompareOp, tok: string)
    requires tok in t.owners && tok != ValueCandidate(prefix, versionPath)
    ensures var r := PlanCondition(t, prefix, versionPath, expected, op);
      tok in r.0.values <==> tok in t.values
    ensures var r := PlanCondition(t, prefix, versionPath, expected, op);
      tok in t.values ==> r.0.values[tok] == t.values[tok]
  {
  }

  /**
   * The condition leaves the update's own aliases intact: every clause still resolves; only
   * the condition's own candidate token can take the condition's literal, and it can only
   * belong to the version path. In the default namespace `expected` the update's token of the
   * version path, `ValueCandidate("", versionPath)`, keeps the new version.
   */
  lemma VersionedKeepsUpdate(
    original: seq<Field>, modified: seq<Field>, orphans: bool, versionPath: Path,
    useCurrent: bool, currentVersion: Option<Value>, op: CompareOp, prefix: string)
    requires PlanVersioned(original, modified, orphans, versionPath, useCurrent, currentVersion, op, prefix).Ok?
    ensures var v := PlanVersioned(original, modified, orphans, versionPath, useCurrent, currentVersion, op, prefix).value;
      && AllResolve(v.plan.assigns, v.table) && AllResolve(v.plan.removes, v.table)
      && (forall tok :: tok in v.plan.table.values && tok in v.plan.table.owners && v.plan.table.owners[tok] != versionPath ==>
           tok in v.table.values && v.table.values[tok] == v.plan.table.values[tok])
      && (forall tok :: tok in v.plan.table.values && tok in v.plan.table.owners && tok != ValueCandidate(prefix, versionPath) ==>
           tok in v.table.values && v.table.values[tok] == v.plan.table.values[tok])
      && (prefix == DefaultPrefix && ValueCandidate("", versionPath) in v.plan.table.values &&
          ValueCandidate("", versionPath) in v.plan.table.owners ==>
           v.table.values[ValueCandidate("", versionPath)] == v.plan.table.values[ValueCandidate("", versionPath)])
  {
    var v := PlanVersioned(original, modified, orphans, versionPath, useCurrent, currentVersion, op, prefix).value;
    var current := CurrentVersion(original, versionPath, currentVersion);
    var expected := if current.None? then None else Some(if useCurrent then current.value else v.version);
    VersionedParts(original, modified, orphans, versionPath, useCurrent, currentVersion, op, prefix);
    PlanKeeps(v.plan, prefix, versionPath, expected, op);
    forall tok | tok in v.plan.table.values && tok in v.plan.table.owners && tok != ValueCandidate(prefix, versionPath)
      ensures tok in v.table.values && v.table.values[tok] == v.plan.table.values[tok]
    {
      ConditionTokenOther(v.plan.table, prefix, versionPath, expected, op, tok);
    }
    ExpectedCandidateLonger(versionPath);
  }

  /**
   * With well-formed documents, every value token of the update holds what the document
   * (the modified one with the version written in) holds at the token's path.
   */
  lemma VersionedValuesFaithful(
    original: seq<Field>, modified: seq<Field>, orphans: bool, versionPath: Path,
    useCurrent: bool, currentVersion: Option<Value>, op: CompareOp, prefix: string)
    requires WellFormed(Obj(original)) && WellFormed(Obj(modified))
    requires currentVersion.Some? ==> WellFormed(currentVersion.value)
    requires PlanVersioned(original, modified, orphans, versionPath, useCurrent, currentVersion, op, prefix).Ok?
    ensures var v := PlanVersioned(original, modified, orphans, versionPath, useCurrent, currentVersion, op, prefix).value;
      Faithful(v.plan.table, Obj(v.document))
  {
    var v := PlanVersioned(original, modified, orphans, versionPath, useCurrent, currentVersion, op, prefix).value;
    VersionedParts(original, modified, orphans, versionPath, useCurrent, currentVersion, op, prefix);
    if Get(Obj(modified), versionPath).Some? {
      WellFormedGet(Obj(modified), versionPath);
    }
    SetAtWellFormed(Obj(modified), versionPath, v.version);
    ValuesFaithful(original, v.document, orphans);
  }

  /**
   * `getVersionLockExpression` fails exactly when the version path does not address an
   * attribute, or when no new version is given and the current one is not a number.
   */
  lemma LockFails(
    original: seq<Field>, versionPath: Path, newVersion: Option<Value>,
    currentVersion: Option<Value>, op: CompareOp)
    ensures var current := CurrentVersion(original, versionPath, currentVersion);
      PlanLock(original, versionPath, newVersion, currentVersion, op).Err? <==>
        (!ValidVersionPath(versionPath) || (newVersion.None? && current.Some? && !current.value.Num?))
  {
  }

  /**
   * The lock's condition never takes over the update's token: the update's candidate is eight
   * characters shorter than the condition's, so whenever the condition's candidate is usable
   * the update's was too, and otherwise the condition's token is fresh.
   */
  lemma LockTokensApart(versionPath: Path, version: Value, expected: Option<Value>, op: CompareOp)
    ensures var a := PlanAssign(EmptyTable, "", Change(versionPath, version));
      var c := PlanCondition(a.0, DefaultPrefix, versionPath, expected, op);
      && a.1.token.value in c.0.values && c.0.values[a.1.token.value] == version
      && (c.1.Compare? ==> c.1.token != a.1.token.value)
  {
    var a := PlanAssign(EmptyTable, "", Change(versionPath, version));
    var c := PlanCondition(a.0, DefaultPrefix, versionPath, expected, op);
    var tok := a.1.token.value;
    assert tok in a.0.owners;
    if c.1.Compare? {
      if Reusable(a.0.owners, ValueCandidate(DefaultPrefix, versionPath), versionPath) {
        ExpectedCandidateLonger(versionPath);
        assert Reusable(EmptyTable.owners, ValueCandidate("", versionPath), versionPath);
      }
      assert c.1.token != tok;
    }
  }

  /**
   * The lock decision table: the update is the single clause `SET <version path> = <token>`
   * whose token holds the new version; the first-write guard exactly when nothing supplies a
   * version; otherwise a comparison whose token holds the original's version, else the
   * override, else the new version itself.
   */
  lemma LockDecision(
    original: seq<Field>, versionPath: Path, newVersion: Option<Value>,
    currentVersion: Option<Value>, op: CompareOp)
    requires PlanLock(original, versionPath, newVersion, currentVersion, op).Ok?
    ensures var l := PlanLock(original, versionPath, newVersion, currentVersion, op).value;
      var current := CurrentVersion(original, versionPath, currentVersion);
      && l.clause.path == versionPath && l.clause.token.Some? && Resolves(l.clause, l.table)
      && (l.condition.NotExists? <==> current.None? && newVersion.None?)
      && (l.condition.Compare? ==>
            l.condition.op == op && l.condition.token in l.table.values &&
            l.table.values[l.condition.token] == (if current.Some? then current.value else newVersion.value))
      && StepsMatch(l.condition.steps, versionPath, l.table.names)
      && l.clause.token.value in l.table.values && l.table.values[l.clause.token.value] == l.version
      && (l.condition.Compare? ==> l.condition.token != l.clause.token.value)
      && (newVersion.Some? ==> l.version == newVersion.value)
      && (newVersion.None? && current.Some? ==> l.version == Num(current.value.n + 1))
      && (newVersion.None? && current.None? ==> l.version == Num(1))
  {
    var l := PlanLock(original, versionPath, newVersion, currentVersion, op).value;
    var current := CurrentVersion(original, versionPath, currentVersion);
    var expected := if current.Some? then current else newVersion;
    var version := NextVersion(newVersion, expected).value;
    var a := PlanAssign(EmptyTable, "", Change(versionPath, version));
    var c := PlanCondition(a.0, DefaultPrefix, versionPath, expected, op);
    assert l == LockPlan(version, a.1, c.0, c.1);
    ResolvesExtends(a.1, a.0, c.0);
    LockTokensApart(versionPath, version, expected, op);
  }

  /** With the default version path the update's token is `:version`. */
  lemma LockClauseToken(original: seq<Field>, newVersion: Option<Value>, op: CompareOp)
    requires PlanLock(original, DefaultVersionPath, newVersion, None, op).Ok?
    ensures PlanLock(original, DefaultVersionPath, newVersion, None, op).value.clause.token == Some(":version")
  {
    var l := PlanLock(original, DefaultVersionPath, newVersion, None, op).value;
    AliasExamples.VersionValue("version");
    assert Reusable(EmptyTable.owners, ":version", DefaultVersionPath);
    assert l.clause == PlanAssign(EmptyTable, "", Change(DefaultVersionPath, l.version)).1;
  }

  /**
   * `getVersionLockExpression({})`, whatever the condition: the first-write guard, and the
   * update's token holds version 1.
   */
  lemma LockOfNothing(op: CompareOp)
    ensures var r := PlanLock(op := op);
      && r.Ok? && r.value.condition.NotExists? && r.value.clause.token == Some(":version")
      && ":version" in r.value.table.values && r.value.table.values[":version"] == Num(1)
  {
    LockClauseToken([], None, op);
    LockDecision([], DefaultVersionPath, None, None, op);
  }

  /** A map of one field holds that field's value at its key. */
  lemma GetOnlyField(k: string, x: Value)
    ensures Get(Obj([Field(k, x)]), [Key(k)]) == Some(x)
  {
    assert [Key(k)][1..] == [];
  }

  /**
   * `getVersionLockExpression({original: {version: 1}})`: the condition's token holds the
   * expected 1 and the update's token the new version 2.
   */
  lemma LockOfVersionOne()
    ensures var r := PlanLock([Field("version", Num(1))], op := Eq);
      && r.Ok? && r.value.condition.Compare? && r.value.clause.token.Some?
      && r.value.condition.token in r.value.table.values
      && r.value.table.values[r.value.condition.token] == Num(1)
      && r.value.clause.token == Some(":version")
      && ":version" in r.value.table.values && r.value.table.values[":version"] == Num(2)
  {
    LockClauseToken([Field("version", Num(1))], None, Eq);
    GetOnlyField("version", Num(1));
    LockDecision([Field("version", Num(1))], DefaultVersionPath, None, None, Eq);
  }

  /** `getVersionLockExpression({original: {version: 'sometext'}})` fails. */
  lemma LockOfText(op: CompareOp)
    ensures PlanLock([Field("version", Str("sometext"))], op := op) == Err(InvalidArguments)
  {
    GetOnlyField("version", Str("sometext"));
    LockFails([Field("version", Str("sometext"))], DefaultVersionPath, None, None, op);
  }
}

=== FILE: wrappers.dfy ===
/** Failure-carrying results shared by the other modules. */
module Wrappers {

  datatype Option<+T> = None | Some(value: T)

  datatype Result<+T, +E> = Ok(value: T) | Err(error: E)
}
